=== FILE: README.md ===
# Crew rotation scheduler and trip list, in Dafny

This project models two parts of a charter-operations dashboard.

**The rotation scheduler of the Scheduling page.**
- `generateSchedule` walks the planning window day by day.
- For each day it works out which pilots are ON from their on/off rotation.
- It pairs the ON pilots in roster order.
- It gives each pair one aircraft tail, in this order:
  - a shared or individual preferred tail;
  - otherwise a round-robin scan from a cursor shared by the whole run;
  - otherwise the `"EXTRA"` overflow bucket.
- A per-(day, tail) ledger allows at most one pair per tail per day.
- It emits one record per pilot per day.
- Around it, the page:
  - cleans its form state (trims names and tail numbers, drops blanks, clamps the window to 7..365 days);
  - projects the records into a tail-by-day grid and into calendar events coloured by tail.

**The trip list of the Trips page.**
- The date comparison.
- The Today / Upcoming / Past sections and their sorting.
- Draft validation.
- Creating a trip (with normalisation), updating a trip, and deleting a trip.
- The pilot toggle of the trip form.

The scheduler is a pure fold over day indices. The state it threads is `RunState(ledger, rr)`. "Today", trip ids and the delete confirmation are parameters.

Modules, in dependency order:
- `Wrappers`: optional values and success-or-error outcomes.
- `Text`: JavaScript `trim`, ASCII `toUpperCase`, and the relational `<` on strings.
- `Roster`: pilots, tails, records, and the duty cycle.
- `Ledger`: pairs used per (day, tail).
- `PairPolicy`: `pickTailForPair`.
- `Generator`: the day loop.
- `ScheduleProperties`: what a whole generated schedule promises.
- `Inputs`: `generate`'s cleaning and clamp.
- `Projections`: grid cells and calendar events.
- `Findings`: concrete page states that show the two discrepancies below.
- `Trips`, `TripGroups`, `TripForm`: the trip list.

## Model

| member | source | states |
|---|---|---|
| Roster.CycleLength | src/pages/Scheduling.js:74 | The cycle is at least one day, and equals on+off whenever that is positive. |
| Roster.DutyStatus | src/pages/Scheduling.js:73-80 | A pilot's ON/OFF status on a day. Its contract is carried by `Roster.DutyPosition`, `DutyPeriodic`, `DutyFirstCycle`, `NoOnDaysAlwaysOff` and `NoOffDaysAlwaysOn`. |
| Roster.DutyPosition | src/pages/Scheduling.js:73-80 | A pilot is ON on day i exactly when i mod (on+off) is below `onDays`. |
| Roster.DutyPeriodic | src/pages/Scheduling.js:74-77 | The duty pattern repeats with period max(1, on+off). |
| Roster.NoOnDaysAlwaysOff | src/pages/Scheduling.js:77 | A pilot with no ON days is never ON. |
| Roster.NoOffDaysAlwaysOn | src/pages/Scheduling.js:74-77 | A pilot with ON days and no OFF days is ON every day. |
| Roster.DutyFirstCycle | src/pages/Scheduling.js:76-77 | Within the first cycle, a pilot is ON exactly on the first `onDays` days. |
| Ledger.PairsUsed | src/pages/Scheduling.js:30 | Pairs booked on a (day, tail), where a missing key counts as none. `Ledger.Reserve` states how a booking changes it, and `ReserveKeepsCapacity` states that it stays at most one. |
| Ledger.Reserve | src/pages/Scheduling.js:32-37 | Reserving bumps the count of that (day, tail) by one, leaves every other count alone, and adds just that key. |
| Ledger.ReserveKeepsCapacity | src/pages/Scheduling.js:26-43 | A reservation made only when `canUse` holds keeps every count at most one pair. |
| PairPolicy.CanUse | src/pages/Scheduling.js:42-43 | A tail can take a pair when it is listed and has no pair that day. `PairPolicy.PickTail` and `PickTailKeepsCapacity` state what picking only usable tails guarantees. |
| PairPolicy.SlotCovers | src/pages/Scheduling.js:58-60 | Within one full turn from any cursor, the scan visits every listed tail. |
| PairPolicy.Scan | src/pages/Scheduling.js:58-66 | The scan finds the first offset whose tail is free. If there is none, it reports that no offset is free. |
| PairPolicy.PickTail | src/pages/Scheduling.js:41-69 | Preference order: first p1's tail, then p2's, each only if listed and free, then the round-robin pick. A listed pick was free and is reserved once. Overflow happens exactly when no listed tail is free, and it changes nothing, which covers the empty list. The cursor moves only on a successful scan, to one past the chosen tail, and stays in range. |
| PairPolicy.PickTailKeepsCapacity | src/pages/Scheduling.js:26-69 | No pick pushes a (day, tail) entry past one pair. |
| Generator.TailNumbers | src/pages/Scheduling.js:23 | The schedulable numbers are exactly the non-empty configured numbers. |
| Generator.TailNumbersConcat | src/pages/Scheduling.js:23 | The numbers of two tail lists joined are the two lists' numbers joined. The round-robin sees the tails in configuration order, repeats included. |
| Generator.TailNumbersOne | src/pages/Scheduling.js:23 | A single tail contributes its number exactly when the number is non-empty. |
| Generator.OnPilots | src/pages/Scheduling.js:85-87 | The day's ON pilots in roster order. It never has more pilots than the roster. `Generator.OnPilotsMembers` and `ScheduleProperties.OnPilotsUnique` carry the rest of its contract, and `Generator.OnPilotsConcat` with `OnPilotsOne` fix the order. |
| Generator.OnPilotsConcat | src/pages/Scheduling.js:85-87 | The ON pilots of two rosters joined are their ON pilots joined. The pairing sees the ON pilots in roster order, repeats included. |
| Generator.OnPilotsOne | src/pages/Scheduling.js:85-87 | A single pilot is kept exactly when it is ON that day. |
| Generator.OnPilotsMembers | src/pages/Scheduling.js:85-87 | The day's ON pilots are exactly the roster pilots ON that day. |
| Generator.AssignDay | src/pages/Scheduling.js:89-113 | One tail per ON pilot, with the run state after the day. `Generator.AssignDayPairs`, `AssignDayTails`, `AssignDayPreferred`, `AssignDayCounts` and `AssignDayKeeps` carry its contract. |
| Generator.PairedUpIndex | src/pages/Scheduling.js:92-97 | In a paired-up list, positions k and k+1 agree for every even k, and an odd-length list ends in "EXTRA". |
| Generator.AssignDayPairs | src/pages/Scheduling.js:92-113 | Consecutive ON pilots (0,1), (2,3), … share their pair's tail. A last odd pilot gets "EXTRA" whatever the capacity. |
| Generator.AssignDayTails | src/pages/Scheduling.js:101-113 | Every tail handed out is listed or "EXTRA". |
| Generator.AssignDayPreferred | src/pages/Scheduling.js:49-52 | A day's first pair flies the first pilot's preferred tail when that tail is listed and free. |
| Generator.AssignDayCounts | src/pages/Scheduling.js:101-111 | Each listed tail appears twice in the day's tails per pair the ledger gained for it that day. |
| Generator.AssignDayKeeps | src/pages/Scheduling.js:26-37 | A day only adds ledger entries for that day, and keeps the one-pair ceiling and the cursor range. |
| Generator.TailForPilot | src/pages/Scheduling.js:99-113 | The `tailForPilot` map from names to the day's tails. `Generator.TailForPilotKeys` and `TailForPilotOwn` carry its contract. |
| Generator.TailForPilotKeys | src/pages/Scheduling.js:99-113 | Every ON pilot's name is a key of `tailForPilot`, and every value is one of the day's tails. |
| Generator.TailForPilotOwn | src/pages/Scheduling.js:99-118 | With distinct names, each ON pilot looks up its own tail. |
| Generator.Record | src/pages/Scheduling.js:115-125 | One pilot's record for a day. `Generator.DayRecordsAt` states its fields. |
| Generator.DayRecords | src/pages/Scheduling.js:115-126 | One record per roster pilot for a day. `Generator.DayRecordsAt` and `DayRecordsOk` carry the rest of its contract. |
| Generator.DayRecordsAt | src/pages/Scheduling.js:115-126 | Record j of a day is roster pilot j: that day, its status, and its looked-up tail (or "EXTRA"), or "" when OFF. |
| Generator.DayRecordsOk | src/pages/Scheduling.js:115-126 | A day's OFF records have an empty tail. Its ON records have a listed tail or "EXTRA". |
| Generator.GenerateFrom | src/pages/Scheduling.js:82-127 | The day loop from a given day and run state. `Generator.GenerateFromLength`, `GenerateFromRecordsOk` and `ScheduleProperties.GenerateFromDay` carry its contract. |
| Generator.GenerateFromLength | src/pages/Scheduling.js:82-127 | A run emits exactly one record per pilot for each remaining day. |
| Generator.GenerateFromRecordsOk | src/pages/Scheduling.js:82-127 | Every record is dated inside the window. A record is OFF exactly when its tail is empty, and an ON record has a listed tail or "EXTRA". |
| Generator.GenerateSchedule | src/pages/Scheduling.js:21-130 | There are `days × pilots` records. Each is dated in the window. OFF means an empty tail. ON means a non-empty configured number or "EXTRA". |
| ScheduleProperties.OnPilotsUnique | src/pages/Scheduling.js:85-87 | Distinct roster names stay distinct among the ON pilots. |
| ScheduleProperties.DayRecordsOnTails | src/pages/Scheduling.js:115-118 | The ON records of a day list the ON pilots' looked-up tails, in roster order. |
| ScheduleProperties.AssignDayPaired | src/pages/Scheduling.js:26-113 | From a ledger with nothing booked for the day, the day has one tail per ON pilot, paired up. No listed tail carries more than two pilots. A free preferred tail goes to the first pair. |
| ScheduleProperties.StateAtEntry | src/pages/Scheduling.js:28-39 | The ledger a run reaches on any day is within capacity and holds nothing for that day or later. |
| ScheduleProperties.DayBlockRoster | src/pages/Scheduling.js:115-126 | A day's block lists the roster in roster order, each pilot with its duty status for that day. |
| ScheduleProperties.OnTailsAtRecords | src/pages/Scheduling.js:120-125 | Only the records of a day contribute to that day's ON tails. |
| ScheduleProperties.GenerateFromDay | src/pages/Scheduling.js:82-127 | The records dated d are the block that day emits from the state the run has reached by then. |
| ScheduleProperties.ScheduleDayView | src/pages/Scheduling.js:82-127 | With distinct names, on every day of the schedule: ON pilots are paired consecutively, partners share a tail, and the odd one out is in "EXTRA". No listed tail has more than one pair. A listed preference of the day's first ON pilot is honoured. |
| ScheduleProperties.PreferredTailFlown | src/pages/Scheduling.js:45-52 | A listed preference of a day's first ON pilot is flown that day. |
| ScheduleProperties.GenerateFromOrdered | src/pages/Scheduling.js:82-127 | Record dates never go back. |
| ScheduleProperties.OrderedConcat | src/pages/Scheduling.js:82-127 | A day's records followed by an ordered run of later days' records are in date order. |
| ScheduleProperties.ScheduleLayout | src/pages/Scheduling.js:82-127 | The output runs day by day, and each day lists the whole roster in roster order with its duty status. |
| Inputs.CleanPilots | src/pages/Scheduling.js:322-324 | Cleaned names are trimmed and non-empty. Every cleaned pilot comes from the roster, and every pilot with a non-blank name is kept, trimmed. |
| Inputs.CleanPilotsConcat | src/pages/Scheduling.js:322-324 | Cleaning two rosters joined gives the two cleaned rosters joined, so roster order and repeated entries are kept. |
| Inputs.CleanPilotsOne | src/pages/Scheduling.js:322-324 | A single pilot is dropped when its name is blank, and otherwise kept with only its name trimmed. |
| Inputs.CleanTails | src/pages/Scheduling.js:326-328 | Cleaned numbers are trimmed and non-empty. Every tail with a non-blank number is kept, trimmed, with its colour. |
| Inputs.CleanTailsConcat | src/pages/Scheduling.js:326-328 | Cleaning two tail lists joined gives the two cleaned lists joined, so configuration order and repeats are kept. |
| Inputs.CleanTailsOne | src/pages/Scheduling.js:326-328 | A single tail is dropped when its number is blank, and otherwise kept with its number trimmed and its colour. |
| Inputs.CleanPilotsIdempotent | src/pages/Scheduling.js:322-324 | Cleaning a cleaned roster changes nothing. |
| Inputs.CleanTailsIdempotent | src/pages/Scheduling.js:326-328 | Cleaning a cleaned tail list changes nothing. |
| Inputs.ClampDays | src/pages/Scheduling.js:332 | The window is always 7..365 days. |
| Inputs.ClampDaysCases | src/pages/Scheduling.js:332 | A missing or zero field gives 60. In-range values are kept. Others go to the nearer bound. The clamp is idempotent. |
| Inputs.CleanTailNumbers | src/pages/Scheduling.js:23 | Scheduled numbers are trimmed, configured numbers. |
| Inputs.Generate | src/pages/Scheduling.js:321-338 | `generate` emits window × cleaned-pilot records. Each record's tail is trimmed. An ON record flies a configured number or "EXTRA". |
| Projections.BuildCells | src/pages/Scheduling.js:141-152 | No key of the cell map holds an empty list. |
| Projections.BuildCellsSpec | src/pages/Scheduling.js:141-152 | Every cell is the names of the ON records of that day and tail, in record order. A key exists exactly when its cell is non-empty. |
| Projections.BuildCellsIgnoresShowOff | src/pages/Scheduling.js:144-145 | The grid is the same whether or not OFF records are to be shown. |
| Projections.CellNamesMember | src/pages/Scheduling.js:143-149 | A name is in a cell exactly when an ON record of that day and tail carries it. |
| Projections.GridRows | src/pages/Scheduling.js:450 | The grid's rows are the configured tails with non-blank numbers, as typed. |
| Projections.GridRowsConcat | src/pages/Scheduling.js:450 | The rows of two tail lists joined are their rows joined, so the grid keeps configuration order. |
| Projections.GridRowsOne | src/pages/Scheduling.js:450 | A single tail gives a row, as typed, exactly when its number is not blank. |
| Projections.PaddedRowEmptyAsWritten | src/pages/Scheduling.js:166-175 | As written, the row of a tail typed with surrounding whitespace is empty on every day of every generated schedule. |
| Projections.GridCellShowsSchedule | src/pages/Scheduling.js:173-178 | With the trimmed lookup, every row shows exactly the ON pilots scheduled on that tail and day, in order. |
| Projections.Shown | src/pages/Scheduling.js:285 | A record is shown exactly when `showOff` is set or it is ON. |
| Projections.ShownConcat | src/pages/Scheduling.js:285 | The shown records of two outputs joined are their shown records joined, so output order and one entry per record are kept. |
| Projections.ShownOne | src/pages/Scheduling.js:285 | A single record is shown exactly when `showOff` is set or it is ON. |
| Projections.ShownAll | src/pages/Scheduling.js:285 | With `showOff`, every record is shown, in order. |
| Projections.ShownOnOnly | src/pages/Scheduling.js:285 | Without `showOff`, only ON records are shown. |
| Projections.ShownCount | src/pages/Scheduling.js:285 | Without `showOff`, exactly the OFF records are dropped. |
| Projections.TailColors | src/pages/Scheduling.js:277-281 | The colour map's keys are the configured numbers as typed. |
| Projections.TailColorsLast | src/pages/Scheduling.js:279 | The last tail with a given number decides its colour. |
| Projections.EventColor | src/pages/Scheduling.js:292-297 | OFF events are grey and "EXTRA" is slate. Any other tail is coloured exactly when the map has it, with the map's colour. |
| Projections.EventTitle | src/pages/Scheduling.js:287-290 | An event's title. `Projections.EventTitleShape` states its shape. |
| Projections.ToEvent | src/pages/Scheduling.js:299-306 | The calendar entry of one record. `Projections.CalendarEvents`, `EventColor` and `EventsColored` carry its contract. |
| Projections.CalendarEvents | src/pages/Scheduling.js:283-307 | The assignment events of the calendar. Their relation to the output is stated by `Projections.CalendarEventsConcat`, `CalendarEventsOne`, `CalendarEventsAll`, `CalendarEventsCount` and `EventsColored`. |
| Projections.CalendarEventsConcat | src/pages/Scheduling.js:283-307 | The events of two outputs joined are the two outputs' events joined, so the events follow output order. |
| Projections.CalendarEventsOne | src/pages/Scheduling.js:284-306 | A single record gives exactly its own event when it is ON or `showOff` is set, and no event otherwise. |
| Projections.CalendarEventsAll | src/pages/Scheduling.js:285-306 | With `showOff`, there is one event per output record, and event i is record i's. |
| Projections.CalendarEventsCount | src/pages/Scheduling.js:285 | Without `showOff`, the event count plus the OFF record count is the output length. |
| Projections.EventTitleShape | src/pages/Scheduling.js:287-290 | OFF titles are the name plus " (OFF)". ON titles start with the tail and end with the name. |
| Projections.EveryEventColored | src/pages/Scheduling.js:292-297 | With the colour map built from the cleaned tails, every event of a generated schedule has a colour. |
| Projections.EventsColored | src/pages/Scheduling.js:283-307 | Every event of an output whose tails come from the configuration finds a colour in the cleaned map. |
| Projections.MemberColored | src/pages/Scheduling.js:277-297 | Any record of an output scheduled from the configured tails finds a colour in the cleaned map. |
| Findings.ExampleGrid | src/pages/Scheduling.js:166-175 | For the tail " N1", the grid row as written is empty on day 0 although a pilot flies N1 that day. The trimmed lookup shows the pilot. |
| Findings.ExampleUncoloured | src/pages/Scheduling.js:277-297 | For the tail " N1", the event of the pilot flying N1 on day 0 finds no colour in the map as written. It finds red in the cleaned map. |
| Text.Trim | src/pages/Scheduling.js:323 | The trim is the string minus its leading and trailing whitespace, and it neither starts nor ends with whitespace. |
| Text.TrimIdempotent | src/pages/Scheduling.js:323 | Trimming twice is trimming once. |
| Text.BlankIff | src/pages/Trips.js:256-258 | A string is blank after trimming exactly when all of it is whitespace. |
| Text.Upper | src/pages/Trips.js:273-274 | Upper-casing keeps the length and maps each character through ASCII upper-casing. |
| Text.TrimUpperTrim | src/pages/Trips.js:273-274 | Trimming a trimmed, upper-cased string changes nothing. |
| Text.LexLessTransitive | src/pages/Trips.js:35-36 | String `<` is transitive. |
| Text.LexLessConnected | src/pages/Trips.js:35-37 | Of two distinct strings, one is below the other. |
| Trips.CompareYmd | src/pages/Trips.js:33-38 | The result is -1, 0 or 1. It is 0 exactly on equal strings, and negative or positive exactly as `a < b` or `a > b`. |
| Trips.CompareYmdAntisymmetric | src/pages/Trips.js:33-38 | compareYmd(a, b) = -compareYmd(b, a). |
| Trips.CompareYmdTransitive | src/pages/Trips.js:33-38 | "Not after" is transitive. |
| Trips.ValidateDraft | src/pages/Trips.js:255-262 | No error exactly when the client, departure and destination are non-blank, the date is set and there are at least 1 passengers. Otherwise the first failing check's message, in form order. |
| Trips.CreateTrip | src/pages/Trips.js:264-286 | An invalid draft is refused with its validation message. A valid one prepends exactly one trip. That trip has the given id, a trimmed client and trimmed upper-cased airports. Its date, passengers (at least one), legs, plane type, catering and pilots are copied from the draft. The list behind it is unchanged. |
| Trips.NewTrip | src/pages/Trips.js:270-281 | The normalised trip `createTrip` builds from a draft. `Trips.CreateTrip` states its fields, and `NewTripStable` states that it is stable. |
| Trips.NewTripStable | src/pages/Trips.js:270-281 | A created trip passes validation again, and normalising it again gives the same trip. |
| Trips.AirportStable | src/pages/Trips.js:273-274 | A non-blank airport code stays non-blank once normalised, and normalising again changes nothing. |
| Trips.Find | src/pages/Trips.js:225 | The index found is the first trip with that id. Nothing is found exactly when no trip has it. |
| Trips.SelectedTrip | src/pages/Trips.js:223-226 | Nothing is returned when no id is selected. Otherwise a trip is found exactly when some trip has the id, and it carries that id. |
| Trips.Overlay | src/pages/Trips.js:294 | Overlaying a draft keeps the trip's id and takes every other field from the draft. |
| Trips.Patch | src/pages/Trips.js:293-295 | Same length. Trips with the id are overlaid, and the others are unchanged. |
| Trips.UpdateTrip | src/pages/Trips.js:288-300 | No selection: nothing happens. An invalid draft is refused with its message. Otherwise, same length and ids: the selected trips show the draft and all other trips are unchanged. |
| Trips.UpdateThenSelect | src/pages/Trips.js:288-300 | After an update, selecting the same id again finds the old trip overlaid with the draft. Repeating the update changes nothing. The page itself clears the selection after saving. |
| Trips.Remove | src/pages/Trips.js:305 | A trip is kept exactly when it is in the list and lacks the id. |
| Trips.RemoveConcat | src/pages/Trips.js:305 | The filter distributes over concatenation, so kept trips keep their order. |
| Trips.RemoveCount | src/pages/Trips.js:305 | Exactly the trips with the id are dropped. |
| Trips.DeleteTrip | src/pages/Trips.js:302-309 | Without a selection or confirmation nothing happens. Otherwise the new list is the old one filtered to the trips without the selected id: same order, same repeats, and shorter (`Trips.RemoveConcat`, `RemoveCount`). |
| Trips.DeleteThenSelect | src/pages/Trips.js:302-309 | After a delete nothing is selected, a second delete does nothing, and the survivors hold no trip with that id. |
| TripForm.Dedup | src/pages/Trips.js:108-111 | Passing a list through a Set leaves no repeats and the same members. |
| TripForm.DedupDistinct | src/pages/Trips.js:108-111 | A list without repeats passes through the Set unchanged. |
| TripForm.Without | src/pages/Trips.js:109 | Deleting a name keeps exactly the other members, and no repeats appear. |
| TripForm.TogglePilot | src/pages/Trips.js:106-113 | The result has no repeats. The name is in it exactly when it was absent before. Every other name keeps its membership. |
| TripForm.ToggleTwiceMembers | src/pages/Trips.js:106-113 | Toggling the same name twice restores membership. |
| TripForm.ToggleTwiceAbsent | src/pages/Trips.js:106-113 | For a list without repeats that lacks the name, toggling twice gives the list back exactly. |
| TripForm.ToggleTwiceMoves | src/pages/Trips.js:106-113 | For a list without repeats that holds the name, toggling twice moves the name to the end. |
| TripGroups.WhenOf | src/pages/Trips.js:234-238 | The section a trip falls in. `TripGroups.WhenOfSpec` ties it to its date against today. |
| TripGroups.WhenOfSpec | src/pages/Trips.js:235-238 | A trip is Today, Upcoming or Past exactly as its date equals, follows or precedes today. |
| TripGroups.Bucket | src/pages/Trips.js:234-239 | A section holds only trips of that section. |
| TripGroups.BucketConcat | src/pages/Trips.js:234-239 | The section of two lists joined is their sections joined, so a section keeps list order, as the unsorted Today section shows. |
| TripGroups.BucketOne | src/pages/Trips.js:235-238 | A single trip is in a section exactly when its date puts it there. |
| TripGroups.BucketsPartition | src/pages/Trips.js:234-239 | The three sections together hold the list's trips, each as often as the list. |
| TripGroups.BucketsCount | src/pages/Trips.js:234-239 | The section sizes add up to the list length. |
| TripGroups.Sort | src/pages/Trips.js:241-243 | Sorting is a permutation. |
| TripGroups.SortSorted | src/pages/Trips.js:241-243 | The sorted list is in comparator order. |
| TripGroups.SortStable | src/pages/Trips.js:241-243 | Trips of equal date keep their list order. |
| TripGroups.Grouped | src/pages/Trips.js:228-246 | Todays are dated today, upcoming after today, past before today. |
| TripGroups.GroupedSpec | src/pages/Trips.js:228-246 | The sections partition the list. Today's section is its bucket. Upcoming is ascending and past descending, each a stable reordering of its bucket. |

## Left out

- Calendar arithmetic in `toYMD`, `addDays` and `todayYMD` (Scheduling.js:7-19, 83; Trips.js:25-31) is not modelled.
  - Scheduler dates are day indices. For a valid start date, distinct indices are distinct dates.
  - Trip dates are strings compared with `<`.
  - "Today" is a parameter.
- The start date is taken to be valid. The date input can be cleared (Scheduling.js:365). The start is then an Invalid Date (line 22), and `toYMD` gives "NaN-NaN-NaN" for every day. All days then share one ledger key per tail, so from day 1 on every tail booked earlier in the run counts as full and its pairs go to "EXTRA". The model, which books each day separately, does not capture this.
- `<` on JavaScript strings compares UTF-16 code units. The model compares Dafny characters, which agrees outside surrogate pairs.
- Text.Upper: models `toUpperCase` for ASCII letters only and leaves other characters unchanged. JavaScript also maps non-ASCII letters, some to several characters (`"ß".toUpperCase()` is `"SS"`), so for such airport codes the length can change. The ASCII-only mapping keeps the length.
- The JavaScript `Number` conversions are modelled on integers only. This covers `Number(days) || 60`, `Number(draft.passengers) || 1` and `Math.max`. A non-numeric window field is `None`. NaN passengers are not modelled.
- Inputs.ClampDays and Generator.GenerateSchedule: a fractional window is not modelled. The days field stores its text as typed (Scheduling.js:370), and line 332 clamps `"7.5"` to 7.5 without rounding. `Array.from({ length: 7.5 })` then builds 7 statuses per pilot (line 75), but the day loop runs while `dayIndex < 7.5`, that is 8 times (line 82). So the last day's records have an undefined status and an empty tail. They are not OFF, so the calendar shows them even without `showOff` (line 285), titled `" — <name>"`. The model takes the window as an integer and gives every day a status.
- A pilot's `onDays` and `offDays` are read with `Number(e.target.value)` (Scheduling.js:420-421), so they can be fractional or NaN. `Pilot.onDays` and `Pilot.offDays` are integers, so fractional cycles and NaN are not modelled.
- `?? 0` and `?? ""` on missing pilot and tail fields, and `|| ""` / `|| []` on missing trip fields, are not modelled. Every field is present.
- The trip id from `crypto.randomUUID`/`Date.now` is a parameter of `CreateTrip`.
- The `window.confirm` answer is a parameter of `DeleteTrip`.
- `alert`, modal state, `resetDraft`, React rendering, FullCalendar and styling are not modelled.
- After a save or a delete, `updateTrip` and `deleteTrip` clear the selection and close the details modal (Trips.js:297-298, 306-307). `UpdateTrip` and `DeleteTrip` return only the new trip list. `UpdateThenSelect` and `DeleteThenSelect` select the old id again, which the page does not do, to state what the edit did to the trips with that id.
- The grid's and ledger's string keys `date__tail` are modelled as (day, tail) pairs. `toYMD` (src/pages/Scheduling.js:7-12) writes the year unpadded and pads only the month and day, so the date text is digits and `-` and never holds `_`. The first `__` in a key therefore ends the date, so the string key determines the pair. Distinct days of one window give distinct dates.
- The grid's day headers use the unclamped `Number(days) || 60` (Scheduling.js:453). The model looks cells up for any day and does not model the header window.
- Trip events merged into the calendar (Scheduling.js:309-318) and event ids (line 300) are not modelled.
- The Dispatch, Accommodations, Clients, IT assets and Users pages, authentication and layout are not part of this model.
- Unique pilot names are a precondition of the lemmas about pair sharing and capacity (`ScheduleDayView`, `PreferredTailFlown`). `tailForPilot` is keyed by name, so two pilots sharing a name overwrite each other's entry.

## Findings

| source | as written | input that shows it | evidently intended | confidence | as-written member | corrected member |
|---|---|---|---|---|---|---|
| src/pages/Scheduling.js:166-175 | Grid rows look cells up by the tail number as typed (rows filtered at line 450 but not trimmed), while `generate` schedules trimmed numbers (line 327). | One tail `" N1"` (red); pilots A (1 on, 0 off, prefers "N1") and B (1 on, 0 off). | Look the row up by its trimmed number, so the row shows the pilots flying it. | not executed | Findings.ExampleGrid | Projections.GridCellShowsSchedule |
| src/pages/Scheduling.js:277-297 | The colour map is keyed by tail numbers as typed, while records carry trimmed numbers, so their events find no colour. | The same tail `" N1"` and pilots A and B. | Build the colour map from the cleaned (trimmed) tails, so every event of a generated schedule is coloured. | not executed | Findings.ExampleUncoloured | Projections.EveryEventColored |

=== FILE: findings.dfy ===
/** A concrete page state on which the grid and the calendar disagree
    with the generated schedule: one tail typed with a leading space. The
    generator schedules its trimmed number, while the grid row and the
    colour lookup use the number as typed. */
module Findings {
  import opened Wrappers
  import opened Text
  import opened Roster
  import opened Generator
  import opened Inputs
  import opened ScheduleProperties
  import opened Projections

  /** Two pilots who fly every day; the first prefers "N1". */
  const ExamplePilots: seq<Pilot> := [Pilot("A", 1, 0, "N1"), Pilot("B", 1, 0, "")]

  /** One tail, typed as " N1". */
  const ExampleTails: seq<Tail> := [Tail(" N1", "#ff0000")]

  lemma TrimNames()
    ensures Trim("A") == "A" && Trim("B") == "B"
  {
    TrimOfTrimmed("A");
    TrimOfTrimmed("B");
  }

  lemma TrimNumber()
    ensures Trim(" N1") == "N1"
  {
    var s := "N1";
    assert !IsSpace(s[0]) && !IsSpace(s[|s| - 1]);
    assert IsSpace(' ');
    TrimOfTrimmed("N1");
    assert " N1" == [' '] + "N1";
    TrimDropsLeadingSpace(' ', "N1");
  }

  lemma ExamplePilotsClean()
    ensures CleanPilots(ExamplePilots) == ExamplePilots
  {
    TrimNames();
    CleanPilotsOfClean(ExamplePilots);
  }

  lemma ExampleTailsClean()
    ensures CleanTails(ExampleTails) == [Tail("N1", "#ff0000")]
    ensures TailNumbers(CleanTails(ExampleTails)) == ["N1"]
  {
    TrimNumber();
    var ts := ExampleTails;
    assert !Blank(ts[0].tailNumber);
    assert ts[0].(tailNumber := Trim(ts[0].tailNumber)) == Tail("N1", "#ff0000");
    assert ts[1..] == [];
    var c := [Tail("N1", "#ff0000")];
    assert c[1..] == [];
  }

  lemma ExampleInputsClean()
    ensures CleanPilots(ExamplePilots) == ExamplePilots
    ensures CleanTails(ExampleTails) == [Tail("N1", "#ff0000")]
    ensures TailNumbers(CleanTails(ExampleTails)) == ["N1"]
    ensures ClampDays(None) == 60
  {
    ExamplePilotsClean();
    ExampleTailsClean();
  }

  lemma ExampleRoster()
    ensures UniqueNames(ExamplePilots)
    ensures OnPilots(ExamplePilots, 0) == ExamplePilots
  {
    assert DutyStatus(ExamplePilots[0], 0) == On && DutyStatus(ExamplePilots[1], 0) == On;
    assert OnPilots(ExamplePilots[1..], 0) == [ExamplePilots[1]];
  }

  /** On day 0 of the example, whatever window is asked for, a pilot flies
      "N1". */
  lemma ExampleDayZero(rawDays: Option<int>)
    ensures Flown(Generate(ExamplePilots, ExampleTails, rawDays), 0, "N1")
  {
    ExampleInputsClean();
    ExampleRoster();
    PreferredTailFlown(ExamplePilots, CleanTails(ExampleTails), ClampDays(rawDays), 0);
  }

  /** The example's schedule over whatever window is asked for. */
  function ExampleOut(rawDays: Option<int>): seq<Assignment> {
    Generate(ExamplePilots, ExampleTails, rawDays)
  }

  /** As written, the grid row " N1" is empty on day 0 although the
      schedule puts a pilot on N1 that day; the trimmed lookup finds them. */
  lemma ExampleGrid(rawDays: Option<int>)
    ensures GridCellAsWritten(BuildCells(ExampleOut(rawDays), false), 0, ExampleTails[0]) == []
    ensures GridCell(BuildCells(ExampleOut(rawDays), false), 0, ExampleTails[0]) != []
  {
    ExampleDayZero(rawDays);
    ExampleRow(ExampleOut(rawDays));
  }

  /** In any output with trimmed tails where some pilot flies "N1" on day
      0, the row " N1" shows nobody that day, and the trimmed lookup shows
      that pilot. */
  lemma ExampleRow(out: seq<Assignment>)
    requires TailsFromConfig(out, ExampleTails)
    requires Flown(out, 0, "N1")
    ensures GridCellAsWritten(BuildCells(out, false), 0, ExampleTails[0]) == []
    ensures GridCell(BuildCells(out, false), 0, ExampleTails[0]) != []
  {
    TrimNumber();
    var i :| 0 <= i < |out| && out[i].status == On && out[i].date == 0 && out[i].tailNumber == "N1";
    PaddedRowHidesFlown(out, ExampleTails, false, 0, ExampleTails[0], i);
  }

  lemma ExampleColorsAsWritten()
    ensures "N1" !in ColorsAsWritten(ExampleTails)
  {
    assert ColorsAsWritten(ExampleTails).Keys == {" N1"};
    assert " N1"[0] != "N1"[0];
  }

  lemma ExampleColorsClean()
    ensures "N1" in Colors(ExampleTails) && Colors(ExampleTails)["N1"] == "#ff0000"
  {
    ExampleTailsClean();
    TailColorsLast([Tail("N1", "#ff0000")]);
    assert LastWithNumber([Tail("N1", "#ff0000")], 0);
  }

  /** A record flying "N1" gets no colour from the map of the tails as
      typed, and red from the map of the cleaned tails. */
  lemma ExampleEventColors(a: Assignment)
    requires a.status == On && a.tailNumber == "N1"
    ensures EventColor(a, ColorsAsWritten(ExampleTails)) == None
    ensures EventColor(a, Colors(ExampleTails)) == Some("#ff0000")
  {
    ExampleColorsAsWritten();
    ExampleColorsClean();
    assert a.tailNumber != Extra by { assert Extra[0] != "N1"[0]; }
  }

  /** As written, the calendar event of the pilot flying N1 on day 0 finds
      no colour; the lookup in the cleaned tails finds it. */
  lemma ExampleUncoloured(rawDays: Option<int>)
    ensures exists i :: 0 <= i < |ExampleOut(rawDays)| && InCell(ExampleOut(rawDays)[i], 0, "N1")
                        && EventColor(ExampleOut(rawDays)[i], ColorsAsWritten(ExampleTails)) == None
                        && EventColor(ExampleOut(rawDays)[i], Colors(ExampleTails)) == Some("#ff0000")
  {
    ExampleDayZero(rawDays);
    ExampleFlownUncoloured(ExampleOut(rawDays));
  }

  /** In any output where some pilot flies "N1" on day 0, that record has
      no colour as written and red when cleaned. */
  lemma ExampleFlownUncoloured(out: seq<Assignment>)
    requires Flown(out, 0, "N1")
    ensures exists i :: 0 <= i < |out| && InCell(out[i], 0, "N1")
                        && EventColor(out[i], ColorsAsWritten(ExampleTails)) == None
                        && EventColor(out[i], Colors(ExampleTails)) == Some("#ff0000")
  {
    var i :| 0 <= i < |out| && out[i].status == On && out[i].date == 0 && out[i].tailNumber == "N1";
    ExampleEventColors(out[i]);
    assert InCell(out[i], 0, "N1");
  }
}

=== FILE: generator.dfy ===
/** `generateSchedule`: a fold over day indices that pairs the day's ON
    pilots in roster order, asks the pair policy for a tail per pair, and
    emits one record per pilot per day. The ledger and the round-robin
    cursor are threaded from pair to pair and from day to day. */
module Generator {
  import opened Seqs
  import opened Roster
  import opened Ledger
  import opened PairPolicy

  /** The schedulable tail numbers: the configured ones, blanks dropped,
      in configuration order. */
  function TailNumbers(tails: seq<Tail>): (r: seq<string>)
    ensures |r| <= |tails|
    ensures forall t :: t in r ==> t != ""
    ensures forall t :: t in r <==> t != "" && exists k :: 0 <= k < |tails| && tails[k].tailNumber == t
  {
    if |tails| == 0 then []
    else
      var rest := TailNumbers(tails[1..]);
      assert forall k :: 0 <= k < |tails| - 1 ==> tails[1..][k] == tails[k + 1];
      (if tails[0].tailNumber != "" then [tails[0].tailNumber] else []) + rest
  }

  /** The numbers of two tail lists joined are their numbers joined: the
      round-robin sees the tails in configuration order, repeats included. */
  lemma {:induction false} TailNumbersConcat(a: seq<Tail>, b: seq<Tail>)
    ensures TailNumbers(a + b) == TailNumbers(a) + TailNumbers(b)
    decreases |a|
  {
    if |a| == 0 {
      assert a + b == b;
    } else {
      assert (a + b)[0] == a[0];
      assert (a + b)[1..] == a[1..] + b;
      TailNumbersCons(a + b);
      TailNumbersCons(a);
      TailNumbersConcat(a[1..], b);
      ConcatAssoc(TailNumbers([a[0]]), TailNumbers(a[1..]), TailNumbers(b));
    }
  }

  /** The first tail's number comes ahead of the rest. */
  lemma TailNumbersCons(a: seq<Tail>)
    requires |a| > 0
    ensures TailNumbers(a) == TailNumbers([a[0]]) + TailNumbers(a[1..])
  {
    var h := if a[0].tailNumber == "" then [] else [a[0].tailNumber];
    TailNumbersOne(a[0]);
    assert TailNumbers(a) == h + TailNumbers(a[1..]);
  }

  /** One tail contributes its number unless the number is empty. */
  lemma TailNumbersOne(t: Tail)
    ensures TailNumbers([t]) == if t.tailNumber == "" then [] else [t.tailNumber]
  {
    assert [t][1..] == [];
  }

  /** The pilots that are ON on `day`, in roster order. */
  function OnPilots(ps: seq<Pilot>, day: nat): (r: seq<Pilot>)
    ensures |r| <= |ps|
  {
    if |ps| == 0 then []
    else (if DutyStatus(ps[0], day) == On then [ps[0]] else []) + OnPilots(ps[1..], day)
  }

  /** The ON pilots are exactly the roster's pilots that are ON that day. */
  lemma {:induction false} OnPilotsMembers(ps: seq<Pilot>, day: nat)
    ensures forall p :: p in OnPilots(ps, day) <==> p in ps && DutyStatus(p, day) == On
    decreases |ps|
  {
    if |ps| > 0 {
      OnPilotsMembers(ps[1..], day);
      assert ps == [ps[0]] + ps[1..];
    }
  }

  /** The ON pilots of two rosters joined are their ON pilots joined: the
      pairing sees the ON pilots in roster order, repeats included. */
  lemma {:induction false} OnPilotsConcat(a: seq<Pilot>, b: seq<Pilot>, day: nat)
    ensures OnPilots(a + b, day) == OnPilots(a, day) + OnPilots(b, day)
    decreases |a|
  {
    if |a| == 0 {
      assert a + b == b;
    } else {
      assert (a + b)[0] == a[0];
      assert (a + b)[1..] == a[1..] + b;
      OnPilotsCons(a + b, day);
      OnPilotsCons(a, day);
      OnPilotsConcat(a[1..], b, day);
      ConcatAssoc(OnPilots([a[0]], day), OnPilots(a[1..], day), OnPilots(b, day));
    }
  }

  /** The first pilot's entry comes ahead of the rest. */
  lemma OnPilotsCons(a: seq<Pilot>, day: nat)
    requires |a| > 0
    ensures OnPilots(a, day) == OnPilots([a[0]], day) + OnPilots(a[1..], day)
  {
    var h := if DutyStatus(a[0], day) == On then [a[0]] else [];
    OnPilotsOne(a[0], day);
    assert OnPilots(a, day) == h + OnPilots(a[1..], day);
  }

  /** One pilot is kept exactly when it is ON that day. */
  lemma OnPilotsOne(p: Pilot, day: nat)
    ensures OnPilots([p], day) == if DutyStatus(p, day) == On then [p] else []
  {
    assert [p][1..] == [];
  }

  /** The tails of one day's ON pilots, in roster order: consecutive pilots
      form a pair and share the tail the policy picks for them; an odd pilot
      out goes to the overflow bucket without consulting the policy. */
  function AssignDay(tails: seq<string>, st: RunState, date: nat, on: seq<Pilot>): (res: (seq<string>, RunState))
    decreases |on|
    ensures |res.0| == |on|
  {
    if |on| == 0 then ([], st)
    else if |on| == 1 then ([Extra], st)
    else
      var pick := PickTail(tails, st, date, on[0].preferredTail, on[1].preferredTail);
      var next := AssignDay(tails, pick.1, date, on[2..]);
      var tail := ChoiceTail(pick.0);
      ([tail, tail] + next.0, next.1)
  }

  /** Read two at a time, the tails come in equal pairs; a single last
      one is the overflow bucket. */
  predicate PairedUp(v: seq<string>)
    decreases |v|
  {
    if |v| == 0 then true
    else if |v| == 1 then v[0] == Extra
    else v[0] == v[1] && PairedUp(v[2..])
  }

  /** By index: positions `k` and `k + 1` agree for every even `k`, and an
      odd-length list ends in the overflow bucket. */
  lemma {:induction false} PairedUpIndex(v: seq<string>)
    requires PairedUp(v)
    decreases |v|
    ensures forall k, j :: 0 <= k < j < |v| && j == k + 1 && k % 2 == 0 ==> v[k] == v[j]
    ensures |v| % 2 == 1 ==> v[|v| - 1] == Extra
  {
    if |v| >= 2 {
      var rest := v[2..];
      PairedUpIndex(rest);
      forall k, j | 0 <= k < j < |v| && j == k + 1 && k % 2 == 0 ensures v[k] == v[j] {
        if k >= 2 {
          assert v[k] == rest[k - 2] && v[j] == rest[j - 2];
        }
      }
      if |v| % 2 == 1 {
        assert v[|v| - 1] == rest[|rest| - 1];
      }
    }
  }

  /** Partners share a tail and an odd pilot out is in the overflow
      bucket. */
  lemma {:induction false} AssignDayPairs(tails: seq<string>, st: RunState, date: nat, on: seq<Pilot>)
    decreases |on|
    ensures PairedUp(AssignDay(tails, st, date, on).0)
  {
    if |on| >= 2 {
      var pick := PickTail(tails, st, date, on[0].preferredTail, on[1].preferredTail);
      var next := AssignDay(tails, pick.1, date, on[2..]).0;
      AssignDayPairs(tails, pick.1, date, on[2..]);
      var tail := ChoiceTail(pick.0);
      var v := [tail, tail] + next;
      assert AssignDay(tails, st, date, on).0 == v;
      assert v[2..] == next;
    }
  }

  /** Every tail handed out is listed or the overflow bucket. */
  lemma {:induction false} AssignDayTails(tails: seq<string>, st: RunState, date: nat, on: seq<Pilot>)
    decreases |on|
    ensures forall s :: s in AssignDay(tails, st, date, on).0 ==> s in tails || s == Extra
  {
    if |on| >= 2 {
      var pick := PickTail(tails, st, date, on[0].preferredTail, on[1].preferredTail);
      var next := AssignDay(tails, pick.1, date, on[2..]).0;
      AssignDayTails(tails, pick.1, date, on[2..]);
      var tail := ChoiceTail(pick.0);
      assert tail in tails || tail == Extra;
      assert AssignDay(tails, st, date, on).0 == [tail, tail] + next;
    }
  }

  /** The first pair gets the first pilot's preferred tail when it is
      listed and still free. */
  lemma AssignDayPreferred(tails: seq<string>, st: RunState, date: nat, on: seq<Pilot>)
    requires |on| >= 2 && on[0].preferredTail != "" && CanUse(tails, st.ledger, date, on[0].preferredTail)
    ensures AssignDay(tails, st, date, on).0[0] == on[0].preferredTail
    ensures AssignDay(tails, st, date, on).0[1] == on[0].preferredTail
  {
    var pick := PickTail(tails, st, date, on[0].preferredTail, on[1].preferredTail);
    assert pick.0 == Listed(on[0].preferredTail);
  }

  /** The ledger side of one day taking `st` to `res`: each listed tail
      handed out was reserved exactly once for the pair that got it, only
      this day's entries change, the one-pair ceiling and the cursor range
      are kept. */
  ghost predicate LedgerStep(tails: seq<string>, st: RunState, date: nat, res: (seq<string>, RunState)) {
    && (forall t :: t != Extra ==>
          multiset(res.0)[t] == 2 * (PairsUsed(res.1.ledger, date, t) - PairsUsed(st.ledger, date, t)))
    && (forall k :: k in res.1.ledger ==> k in st.ledger || k.0 == date)
    && (WithinCapacity(st.ledger) ==> WithinCapacity(res.1.ledger))
    && (CursorInRange(tails, st) ==> CursorInRange(tails, res.1))
  }

  lemma AssignDayLedger(tails: seq<string>, st: RunState, date: nat, on: seq<Pilot>)
    ensures LedgerStep(tails, st, date, AssignDay(tails, st, date, on))
  {
    AssignDayCounts(tails, st, date, on);
    AssignDayKeeps(tails, st, date, on);
  }

  /** Each listed tail handed out on `date` appears twice per pair the
      ledger gained for it. */
  lemma {:induction false} AssignDayCounts(tails: seq<string>, st: RunState, date: nat, on: seq<Pilot>)
    decreases |on|
    ensures var res := AssignDay(tails, st, date, on);
            forall t :: t != Extra ==>
              multiset(res.0)[t] == 2 * (PairsUsed(res.1.ledger, date, t) - PairsUsed(st.ledger, date, t))
  {
    if |on| >= 2 {
      var pick := PickTail(tails, st, date, on[0].preferredTail, on[1].preferredTail);
      var rest := AssignDay(tails, pick.1, date, on[2..]);
      AssignDayCounts(tails, pick.1, date, on[2..]);
      var tail := ChoiceTail(pick.0);
      assert AssignDay(tails, st, date, on) == ([tail, tail] + rest.0, rest.1);
      assert multiset([tail, tail] + rest.0) == multiset([tail, tail]) + multiset(rest.0);
      assert forall t :: t != Extra ==>
        multiset([tail, tail])[t] == 2 * (PairsUsed(pick.1.ledger, date, t) - PairsUsed(st.ledger, date, t));
    }
  }

  /** Only `date`'s entries change, and the one-pair ceiling and the
      cursor range are kept. */
  lemma {:induction false} AssignDayKeeps(tails: seq<string>, st: RunState, date: nat, on: seq<Pilot>)
    decreases |on|
    ensures var res := AssignDay(tails, st, date, on);
            && (forall k :: k in res.1.ledger ==> k in st.ledger || k.0 == date)
            && (WithinCapacity(st.ledger) ==> WithinCapacity(res.1.ledger))
            && (CursorInRange(tails, st) ==> CursorInRange(tails, res.1))
  {
    if |on| >= 2 {
      var pick := PickTail(tails, st, date, on[0].preferredTail, on[1].preferredTail);
      PickTailKeepsCapacity(tails, st, date, on[0].preferredTail, on[1].preferredTail);
      AssignDayKeeps(tails, pick.1, date, on[2..]);
    }
  }

  /** `tailForPilot`: pilot name to tail, set in roster order, so a later
      pilot with the same name overwrites an earlier one. */
  function TailForPilot(on: seq<Pilot>, ts: seq<string>): (m: map<string, string>)
    requires |on| == |ts|
  {
    if |on| == 0 then map[]
    else
      var n := |on| - 1;
      TailForPilot(on[..n], ts[..n])[on[n].name := ts[n]]
  }

  /** Every ON pilot's name is a key and every value is one of the day's
      tails. */
  lemma {:induction false} TailForPilotKeys(on: seq<Pilot>, ts: seq<string>)
    requires |on| == |ts|
    decreases |on|
    ensures forall k :: 0 <= k < |on| ==> on[k].name in TailForPilot(on, ts)
    ensures forall v :: v in TailForPilot(on, ts).Values ==> v in ts
  {
    if |on| > 0 {
      var n := |on| - 1;
      TailForPilotKeys(on[..n], ts[..n]);
      assert forall k :: 0 <= k < n ==> on[..n][k] == on[k];
      assert forall v :: v in ts[..n] ==> v in ts;
    }
  }

  /** With distinct names, each ON pilot finds its own tail. */
  lemma {:induction false} TailForPilotOwn(on: seq<Pilot>, ts: seq<string>)
    requires |on| == |ts|
    requires UniqueNames(on)
    decreases |on|
    ensures forall k :: 0 <= k < |on| ==> on[k].name in TailForPilot(on, ts) && TailForPilot(on, ts)[on[k].name] == ts[k]
  {
    if |on| > 0 {
      var n := |on| - 1;
      var prev := TailForPilot(on[..n], ts[..n]);
      assert UniqueNames(on[..n]) by {
        assert forall k :: 0 <= k < n ==> on[..n][k] == on[k];
      }
      TailForPilotOwn(on[..n], ts[..n]);
      forall k | 0 <= k < |on|
        ensures on[k].name in TailForPilot(on, ts) && TailForPilot(on, ts)[on[k].name] == ts[k]
      {
        if k < n {
          assert on[..n][k] == on[k] && ts[..n][k] == ts[k];
          assert on[k].name != on[n].name;
        }
      }
    }
  }

  /** The record of one roster pilot on one day: an ON pilot takes the tail
      looked up by name (overflow when absent), an OFF pilot has no tail. */
  function Record(p: Pilot, date: nat, m: map<string, string>): Assignment {
    var status := DutyStatus(p, date);
    var tail := if status == On then (if p.name in m then m[p.name] else Extra) else "";
    Assignment(date, p.name, status, tail)
  }

  /** OFF records carry no tail; ON records carry a listed tail or the
      overflow bucket. */
  predicate RecordOk(a: Assignment, tails: seq<string>) {
    && (a.status == Off <==> a.tailNumber == "")
    && (a.status == On ==> a.tailNumber in tails || a.tailNumber == Extra)
  }

  /** One record per roster pilot, in roster order. */
  function DayRecords(ps: seq<Pilot>, date: nat, m: map<string, string>): (r: seq<Assignment>)
    ensures |r| == |ps|
  {
    if |ps| == 0 then [] else [Record(ps[0], date, m)] + DayRecords(ps[1..], date, m)
  }

  /** Record `j` of a day belongs to roster pilot `j`. */
  lemma {:induction false} DayRecordsAt(ps: seq<Pilot>, date: nat, m: map<string, string>)
    decreases |ps|
    ensures forall j :: 0 <= j < |ps| ==> DayRecords(ps, date, m)[j] == Record(ps[j], date, m)
  {
    if |ps| > 0 {
      DayRecordsAt(ps[1..], date, m);
    }
  }

  /** A day's records are well formed when every tail the name lookup can
      return is a non-empty listed tail or the overflow bucket. */
  lemma DayRecordsOk(ps: seq<Pilot>, date: nat, m: map<string, string>, tails: seq<string>)
    requires forall t :: t in tails ==> t != ""
    requires forall v :: v in m.Values ==> v in tails || v == Extra
    ensures forall a :: a in DayRecords(ps, date, m) ==> a.date == date && RecordOk(a, tails)
  {
    var r := DayRecords(ps, date, m);
    DayRecordsAt(ps, date, m);
    forall a | a in r ensures a.date == date && RecordOk(a, tails) {
      var j :| 0 <= j < |r| && r[j] == a;
      if ps[j].name in m {
        assert m[ps[j].name] in m.Values;
      }
    }
  }

  lemma MulSucc(total: nat, rest: nat, n: nat, b: nat)
    requires total == b + rest && rest == n * b
    ensures total == (n + 1) * b
  {
  }

  /** The records one day emits for a run entering it in state `st`. */
  function DayBlock(tails: seq<string>, pilots: seq<Pilot>, day: nat, st: RunState): seq<Assignment> {
    var on := OnPilots(pilots, day);
    DayRecords(pilots, day, TailForPilot(on, AssignDay(tails, st, day, on).0))
  }

  /** The state the run hands from `day` to the next day. */
  function NextState(tails: seq<string>, pilots: seq<Pilot>, day: nat, st: RunState): RunState {
    AssignDay(tails, st, day, OnPilots(pilots, day)).1
  }

  /** Days `day .. days-1` of a run that enters `day` in state `st`: one
      block of `|pilots|` records per day. */
  function GenerateFrom(tails: seq<string>, pilots: seq<Pilot>, days: nat, day: nat, st: RunState): (r: seq<Assignment>)
    decreases days - day
  {
    if day >= days then []
    else DayBlock(tails, pilots, day, st) + GenerateFrom(tails, pilots, days, day + 1, NextState(tails, pilots, day, st))
  }

  /** A run entered at `day` emits one record per pilot for each remaining
      day. */
  lemma {:induction false} GenerateFromLength(tails: seq<string>, pilots: seq<Pilot>, days: nat, day: nat, st: RunState)
    requires day <= days
    decreases days - day
    ensures |GenerateFrom(tails, pilots, days, day, st)| == (days - day) * |pilots|
  {
    if day < days {
      var next := NextState(tails, pilots, day, st);
      GenerateFromLength(tails, pilots, days, day + 1, next);
      GenerateFromStepLength(tails, pilots, days, day, st);
      var rest := |GenerateFrom(tails, pilots, days, day + 1, next)|;
      MulSucc(|GenerateFrom(tails, pilots, days, day, st)|, rest, days - day - 1, |pilots|);
    }
  }

  /** One day of a run adds one record per pilot to the rest of the run. */
  lemma GenerateFromStepLength(tails: seq<string>, pilots: seq<Pilot>, days: nat, day: nat, st: RunState)
    requires day < days
    ensures |GenerateFrom(tails, pilots, days, day, st)|
            == |pilots| + |GenerateFrom(tails, pilots, days, day + 1, NextState(tails, pilots, day, st))|
  {
  }

  /** Every record is dated inside `day .. days-1` and well formed. */
  predicate WindowOk(r: seq<Assignment>, day: nat, days: nat, tails: seq<string>) {
    forall i :: 0 <= i < |r| ==> day <= r[i].date < days && RecordOk(r[i], tails)
  }

  /** Every record of a run entered at `day` is dated inside the window and
      well formed. */
  lemma {:induction false} GenerateFromRecordsOk(tails: seq<string>, pilots: seq<Pilot>, days: nat, day: nat, st: RunState)
    requires forall t :: t in tails ==> t != ""
    decreases days - day
    ensures WindowOk(GenerateFrom(tails, pilots, days, day, st), day, days, tails)
  {
    if day < days {
      var on := OnPilots(pilots, day);
      var dayTails := AssignDay(tails, st, day, on);
      var m := TailForPilot(on, dayTails.0);
      var block := DayBlock(tails, pilots, day, st);
      var rest := GenerateFrom(tails, pilots, days, day + 1, NextState(tails, pilots, day, st));
      AssignDayTails(tails, st, day, on);
      TailForPilotKeys(on, dayTails.0);
      DayRecordsOk(pilots, day, m, tails);
      GenerateFromRecordsOk(tails, pilots, days, day + 1, NextState(tails, pilots, day, st));
      var r := block + rest;
      assert r == GenerateFrom(tails, pilots, days, day, st);
      forall i | 0 <= i < |r| ensures day <= r[i].date < days && RecordOk(r[i], tails) {
        if i < |block| {
          assert r[i] == block[i] && block[i] in block;
        } else {
          assert r[i] == rest[i - |block|];
        }
      }
    }
  }

  /** `generateSchedule`: the whole window from a fresh ledger and cursor.
      It emits `days` records per pilot, every OFF record has an empty tail
      and every ON record a listed tail or the overflow bucket. */
  function GenerateSchedule(pilots: seq<Pilot>, tails: seq<Tail>, days: nat): (r: seq<Assignment>)
    ensures |r| == days * |pilots|
    ensures forall i :: 0 <= i < |r| ==> r[i].date < days
    ensures forall i :: 0 <= i < |r| ==> (r[i].status == Off <==> r[i].tailNumber == "")
    ensures forall i :: 0 <= i < |r| && r[i].status == On ==> r[i].tailNumber in TailNumbers(tails) || r[i].tailNumber == Extra
  {
    GenerateFromRecordsOk(TailNumbers(tails), pilots, days, 0, InitialState);
    GenerateFromLength(TailNumbers(tails), pilots, days, 0, InitialState);
    GenerateFrom(TailNumbers(tails), pilots, days, 0, InitialState)
  }
}

=== FILE: inputs.dfy ===
/** What the scheduler page does to its form state before generating:
    pilot names and tail numbers are trimmed and blank ones dropped, and the
    requested number of days is defaulted and clamped. */
module Inputs {
  import opened Wrappers
  import opened Seqs
  import opened Text
  import opened Roster
  import opened Generator

  /** Every roster entry with a non-blank name, its name trimmed. */
  ghost function CleanedPilots(ps: seq<Pilot>): set<Pilot> {
    set q | q in ps && !Blank(q.name) :: q.(name := Trim(q.name))
  }

  /** Every configured tail with a non-blank number, its number trimmed. */
  ghost function CleanedTails(ts: seq<Tail>): set<Tail> {
    set u | u in ts && !Blank(u.tailNumber) :: u.(tailNumber := Trim(u.tailNumber))
  }

  /** The tail numbers a cleaned configuration can schedule. */
  ghost function CleanNumbers(ts: seq<Tail>): set<string> {
    set u | u in ts && !Blank(u.tailNumber) :: Trim(u.tailNumber)
  }

  /** Pilots with their names trimmed, blank names dropped, roster order
      kept. Only the name is touched: rotations and preferences pass through
      as entered. */
  function CleanPilots(ps: seq<Pilot>): (r: seq<Pilot>)
    ensures |r| <= |ps|
    ensures forall p :: p in r ==> p.name != "" && Trim(p.name) == p.name
    ensures forall p :: p in r ==> p in CleanedPilots(ps)
    ensures forall q :: q in ps && !Blank(q.name) ==> q.(name := Trim(q.name)) in r
  {
    if |ps| == 0 then []
    else
      var q := ps[0];
      var rest := CleanPilots(ps[1..]);
      TrimIdempotent(q.name);
      if Blank(q.name) then rest else [q.(name := Trim(q.name))] + rest
  }

  /** Tails with their numbers trimmed, blank numbers dropped, order and
      colours kept. */
  function CleanTails(ts: seq<Tail>): (r: seq<Tail>)
    ensures |r| <= |ts|
    ensures forall t :: t in r ==> t.tailNumber != "" && Trim(t.tailNumber) == t.tailNumber
    ensures forall t :: t in r ==> t in CleanedTails(ts)
    ensures forall u :: u in ts && !Blank(u.tailNumber) ==> u.(tailNumber := Trim(u.tailNumber)) in r
  {
    if |ts| == 0 then []
    else
      var u := ts[0];
      var rest := CleanTails(ts[1..]);
      TrimIdempotent(u.tailNumber);
      if Blank(u.tailNumber) then rest else [u.(tailNumber := Trim(u.tailNumber))] + rest
  }

  /** Cleaning works record by record: the cleaned roster of two lists
      joined is the two cleaned rosters joined, so roster order and repeated
      entries are kept. */
  lemma {:induction false} CleanPilotsConcat(a: seq<Pilot>, b: seq<Pilot>)
    ensures CleanPilots(a + b) == CleanPilots(a) + CleanPilots(b)
    decreases |a|
  {
    if |a| == 0 {
      assert a + b == b;
    } else {
      assert (a + b)[0] == a[0];
      assert (a + b)[1..] == a[1..] + b;
      CleanPilotsCons(a + b);
      CleanPilotsCons(a);
      CleanPilotsConcat(a[1..], b);
      ConcatAssoc(CleanPilots([a[0]]), CleanPilots(a[1..]), CleanPilots(b));
    }
  }

  /** The first roster entry is cleaned on its own, ahead of the rest. */
  lemma CleanPilotsCons(a: seq<Pilot>)
    requires |a| > 0
    ensures CleanPilots(a) == CleanPilots([a[0]]) + CleanPilots(a[1..])
  {
    var h := if Blank(a[0].name) then [] else [a[0].(name := Trim(a[0].name))];
    CleanPilotsOne(a[0]);
    assert CleanPilots(a) == h + CleanPilots(a[1..]);
  }

  /** One roster entry: dropped when its name is blank, otherwise kept with
      its name trimmed. */
  lemma CleanPilotsOne(p: Pilot)
    ensures CleanPilots([p]) == if Blank(p.name) then [] else [p.(name := Trim(p.name))]
  {
    assert [p][1..] == [];
  }

  /** Cleaning tails works tail by tail, so configuration order and
      repeated entries are kept. */
  lemma {:induction false} CleanTailsConcat(a: seq<Tail>, b: seq<Tail>)
    ensures CleanTails(a + b) == CleanTails(a) + CleanTails(b)
    decreases |a|
  {
    if |a| == 0 {
      assert a + b == b;
    } else {
      assert (a + b)[0] == a[0];
      assert (a + b)[1..] == a[1..] + b;
      CleanTailsCons(a + b);
      CleanTailsCons(a);
      CleanTailsConcat(a[1..], b);
      ConcatAssoc(CleanTails([a[0]]), CleanTails(a[1..]), CleanTails(b));
    }
  }

  /** The first tail is cleaned on its own, ahead of the rest. */
  lemma CleanTailsCons(a: seq<Tail>)
    requires |a| > 0
    ensures CleanTails(a) == CleanTails([a[0]]) + CleanTails(a[1..])
  {
    var h := if Blank(a[0].tailNumber) then [] else [a[0].(tailNumber := Trim(a[0].tailNumber))];
    CleanTailsOne(a[0]);
    assert CleanTails(a) == h + CleanTails(a[1..]);
  }

  /** One tail: dropped when its number is blank, otherwise kept with its
      number trimmed and its colour. */
  lemma CleanTailsOne(t: Tail)
    ensures CleanTails([t]) == if Blank(t.tailNumber) then [] else [t.(tailNumber := Trim(t.tailNumber))]
  {
    assert [t][1..] == [];
  }

  /** Cleaning a cleaned roster changes nothing. */
  lemma {:induction false} CleanPilotsIdempotent(ps: seq<Pilot>)
    ensures CleanPilots(CleanPilots(ps)) == CleanPilots(ps)
    decreases |ps|
  {
    if |ps| > 0 {
      var q := ps[0];
      var rest := CleanPilots(ps[1..]);
      CleanPilotsIdempotent(ps[1..]);
      if !Blank(q.name) {
        var c := [q.(name := Trim(q.name))] + rest;
        TrimIdempotent(q.name);
        assert c[0] == q.(name := Trim(q.name)) && c[1..] == rest;
        assert c[0].(name := Trim(c[0].name)) == c[0];
      }
    }
  }

  /** A roster whose names are all trimmed and non-empty is left as is. */
  lemma {:induction false} CleanPilotsOfClean(ps: seq<Pilot>)
    requires forall i :: 0 <= i < |ps| ==> ps[i].name != "" && Trim(ps[i].name) == ps[i].name
    ensures CleanPilots(ps) == ps
    decreases |ps|
  {
    if |ps| > 0 {
      CleanPilotsOfClean(ps[1..]);
      assert ps[0].(name := Trim(ps[0].name)) == ps[0];
      assert ps == [ps[0]] + ps[1..];
    }
  }

  /** Cleaning a cleaned tail list changes nothing. */
  lemma {:induction false} CleanTailsIdempotent(ts: seq<Tail>)
    ensures CleanTails(CleanTails(ts)) == CleanTails(ts)
    decreases |ts|
  {
    if |ts| > 0 {
      var u := ts[0];
      var rest := CleanTails(ts[1..]);
      CleanTailsIdempotent(ts[1..]);
      if !Blank(u.tailNumber) {
        var c := [u.(tailNumber := Trim(u.tailNumber))] + rest;
        TrimIdempotent(u.tailNumber);
        assert c[0] == u.(tailNumber := Trim(u.tailNumber)) && c[1..] == rest;
        assert c[0].(tailNumber := Trim(c[0].tailNumber)) == c[0];
      }
    }
  }

  const MinDays: int := 7
  const MaxDays: int := 365
  const DefaultDays: int := 60

  /** `Math.max(7, Math.min(365, Number(days) || 60))`. `raw` is the number
      the form field converts to, or None when it is not a number; zero and
      not-a-number both fall back to the default. */
  function ClampDays(raw: Option<int>): (n: nat)
    ensures MinDays <= n <= MaxDays
  {
    var v := if raw.None? || raw.value == 0 then DefaultDays else raw.value;
    if v < MinDays then MinDays else if v > MaxDays then MaxDays else v
  }

  /** The clamp leaves a window length that is already in range alone,
      pushes anything outside to the nearer bound, and defaults a missing or
      zero field; so it is idempotent. */
  lemma ClampDaysCases(raw: Option<int>)
    ensures raw.None? ==> ClampDays(raw) == DefaultDays
    ensures raw.Some? && raw.value == 0 ==> ClampDays(raw) == DefaultDays
    ensures raw.Some? && MinDays <= raw.value <= MaxDays ==> ClampDays(raw) == raw.value
    ensures raw.Some? && raw.value != 0 && raw.value < MinDays ==> ClampDays(raw) == MinDays
    ensures raw.Some? && raw.value > MaxDays ==> ClampDays(raw) == MaxDays
    ensures ClampDays(Some(ClampDays(raw))) == ClampDays(raw)
  {
  }

  /** The numbers a cleaned tail list schedules are trimmed and come from
      the configuration. */
  lemma CleanTailNumbers(tails: seq<Tail>)
    ensures forall t :: t in TailNumbers(CleanTails(tails)) ==> Trim(t) == t && t in CleanNumbers(tails)
  {
    var ct := CleanTails(tails);
    forall t | t in TailNumbers(ct) ensures Trim(t) == t && t in CleanNumbers(tails) {
      var k :| 0 <= k < |ct| && ct[k].tailNumber == t;
      assert ct[k] in ct;
      var u :| u in tails && !Blank(u.tailNumber) && ct[k] == u.(tailNumber := Trim(u.tailNumber));
    }
  }

  /** The empty tail and the overflow bucket are trimmed. */
  lemma FixedTailsTrimmed()
    ensures Trim("") == "" && Trim(Extra) == Extra
  {
    TrimStartOfTrimmed(Extra);
    TrimEndOfTrimmed(Extra);
  }

  /** Every record's tail is trimmed, and every ON record outside the
      overflow bucket flies the trimmed number of a configured tail. */
  ghost predicate TailsFromConfig(out: seq<Assignment>, tails: seq<Tail>) {
    forall i :: 0 <= i < |out| ==>
      && Trim(out[i].tailNumber) == out[i].tailNumber
      && (out[i].status == On && out[i].tailNumber != Extra ==> out[i].tailNumber in CleanNumbers(tails))
  }

  /** Output whose OFF records have no tail and whose ON records fly a
      scheduled number of the cleaned configuration, or the overflow bucket,
      takes its tails from the configuration. */
  lemma TailsFromCleanConfig(out: seq<Assignment>, tails: seq<Tail>)
    requires forall i :: 0 <= i < |out| ==> (out[i].status == Off <==> out[i].tailNumber == "")
    requires forall i :: 0 <= i < |out| && out[i].status == On ==>
               out[i].tailNumber in TailNumbers(CleanTails(tails)) || out[i].tailNumber == Extra
    ensures TailsFromConfig(out, tails)
  {
    CleanTailNumbers(tails);
    FixedTailsTrimmed();
  }

  /** `generate`: clean the form state and run the generator over the
      clamped window. Every record's tail is already trimmed, and an ON
      record flies the trimmed number of some configured tail or is in the
      overflow bucket. */
  function Generate(pilots: seq<Pilot>, tails: seq<Tail>, rawDays: Option<int>): (r: seq<Assignment>)
    ensures |r| == ClampDays(rawDays) * |CleanPilots(pilots)|
    ensures forall i :: 0 <= i < |r| ==> r[i].date < ClampDays(rawDays)
    ensures TailsFromConfig(r, tails)
  {
    var r := GenerateSchedule(CleanPilots(pilots), CleanTails(tails), ClampDays(rawDays));
    TailsFromCleanConfig(r, tails);
    r
  }
}

=== FILE: ledger.dfy ===
/** The tail capacity ledger of one generation run: how many pilot pairs
    have been placed on each tail on each day. It only ever grows, and a
    run starts from an empty ledger. */
module Ledger {

  /** Keyed by (day index, tail number); an absent key reads as zero. */
  type Ledger = map<(nat, string), nat>

  /** One pair per tail per day. */
  const MaxPairsPerTailPerDay: nat := 1

  function PairsUsed(l: Ledger, date: nat, tail: string): nat {
    if (date, tail) in l then l[(date, tail)] else 0
  }

  /** Places one more pair on `tail` on `date` and touches no other entry. */
  function Reserve(l: Ledger, date: nat, tail: string): (l': Ledger)
    ensures PairsUsed(l', date, tail) == PairsUsed(l, date, tail) + 1
    ensures forall d: nat, t: string :: (d, t) != (date, tail) ==> PairsUsed(l', d, t) == PairsUsed(l, d, t)
    ensures l'.Keys == l.Keys + {(date, tail)}
  {
    l[(date, tail) := PairsUsed(l, date, tail) + 1]
  }

  /** No (day, tail) entry exceeds the one-pair ceiling. */
  predicate WithinCapacity(l: Ledger) {
    forall k :: k in l ==> l[k] <= MaxPairsPerTailPerDay
  }

  /** Reserving a tail that still had room keeps the whole ledger within
      capacity, and the reserved entry is then full. */
  lemma ReserveKeepsCapacity(l: Ledger, date: nat, tail: string)
    requires WithinCapacity(l)
    requires PairsUsed(l, date, tail) < MaxPairsPerTailPerDay
    ensures WithinCapacity(Reserve(l, date, tail))
    ensures PairsUsed(Reserve(l, date, tail), date, tail) == MaxPairsPerTailPerDay
  {
    var l' := Reserve(l, date, tail);
    forall k | k in l' ensures l'[k] <= MaxPairsPerTailPerDay {
      if k != (date, tail) {
        assert PairsUsed(l', k.0, k.1) == PairsUsed(l, k.0, k.1);
      }
    }
  }
}

=== FILE: pair_policy.dfy ===
/** The pair assignment policy: which tail a pair of ON pilots flies on a
    given day. Preferences come first, then a round-robin scan from a cursor
    shared by the whole run, then the overflow bucket. */
module PairPolicy {
  import opened Wrappers
  import opened Text
  import opened Roster
  import opened Ledger

  /** What one generation run threads from pair to pair and day to day. */
  datatype RunState = RunState(ledger: Ledger, rr: nat)

  /** A listed tail, or the overflow bucket (rendered as "EXTRA"). */
  datatype Choice = Listed(tail: string) | Overflow

  function ChoiceTail(c: Choice): string {
    match c
    case Listed(t) => t
    case Overflow => Extra
  }

  /** The fresh state every run starts from. */
  const InitialState: RunState := RunState(map[], 0)

  /** The cursor indexes the tail list, and stays 0 when the list is empty. */
  predicate CursorInRange(tails: seq<string>, st: RunState) {
    if |tails| == 0 then st.rr == 0 else st.rr < |tails|
  }

  /** A tail may take a pair when it is configured and still has room on
      that day. */
  predicate CanUse(tails: seq<string>, l: Ledger, date: nat, tail: string) {
    tail in tails && PairsUsed(l, date, tail) < MaxPairsPerTailPerDay
  }

  /** The tail the round-robin scan looks at after `i` steps from `rr`. */
  function Slot(tails: seq<string>, rr: nat, i: nat): string
    requires |tails| > 0
  {
    tails[(rr + i) % |tails|]
  }

  /** Every tail is reached by the scan within one full turn. */
  lemma SlotCovers(tails: seq<string>, rr: nat, idx: nat)
    requires idx < |tails|
    ensures var j := (idx - rr) % |tails|; 0 <= j < |tails| && Slot(tails, rr, j) == tails[idx]
  {
    var n := |tails|;
    var j := (idx - rr) % n;
    var q := (idx - rr) / n;
    assert rr + j == (-q) * n + idx;
    ModUnique(rr + j, n, -q, idx);
  }

  /** The round-robin loop: the first offset from `i` on whose tail has
      room, or None when the remaining offsets are all full. */
  function Scan(tails: seq<string>, l: Ledger, date: nat, rr: nat, i: nat): (k: Option<nat>)
    decreases |tails| - i
    ensures k.Some? ==> i <= k.value < |tails|
                        && CanUse(tails, l, date, Slot(tails, rr, k.value))
                        && forall j :: i <= j < k.value ==> !CanUse(tails, l, date, Slot(tails, rr, j))
    ensures k.None? ==> forall j :: i <= j < |tails| ==> !CanUse(tails, l, date, Slot(tails, rr, j))
  {
    if i >= |tails| then None
    else if CanUse(tails, l, date, Slot(tails, rr, i)) then Some(i)
    else Scan(tails, l, date, rr, i + 1)
  }

  /** `pickTailForPair`: a shared preference, then the first pilot's, then
      the second's, each only if listed and free that day; otherwise the
      first free tail from the cursor, which then moves one past it;
      otherwise the overflow bucket. A listed pick reserves its tail once. */
  function PickTail(tails: seq<string>, st: RunState, date: nat, p1Pref: string, p2Pref: string): (res: (Choice, RunState))
    // a listed pick had room and is reserved exactly once
    ensures res.0.Listed? ==> CanUse(tails, st.ledger, date, res.0.tail)
                              && res.1.ledger == Reserve(st.ledger, date, res.0.tail)
    // overflow changes nothing, and happens exactly when every listed tail is full
    ensures res.0.Overflow? ==> res.1 == st
    ensures res.0.Overflow? <==> forall t :: t in tails ==> !CanUse(tails, st.ledger, date, t)
    // preference order
    ensures p1Pref != "" && CanUse(tails, st.ledger, date, p1Pref) ==> res == (Listed(p1Pref), st.(ledger := Reserve(st.ledger, date, p1Pref)))
    ensures !(p1Pref != "" && CanUse(tails, st.ledger, date, p1Pref))
            && p2Pref != "" && CanUse(tails, st.ledger, date, p2Pref)
            ==> res == (Listed(p2Pref), st.(ledger := Reserve(st.ledger, date, p2Pref)))
    // the round-robin scan picks the first free tail from the cursor and moves the cursor one past it
    ensures !(p1Pref != "" && CanUse(tails, st.ledger, date, p1Pref))
            && !(p2Pref != "" && CanUse(tails, st.ledger, date, p2Pref))
            && res.0.Listed?
            ==> exists i :: 0 <= i < |tails| && res.0.tail == Slot(tails, st.rr, i)
                           && res.1.rr == (st.rr + i + 1) % |tails|
                           && forall j :: 0 <= j < i ==> !CanUse(tails, st.ledger, date, Slot(tails, st.rr, j))
    // the cursor moves only on a successful scan, to one past a listed tail
    ensures res.1.rr != st.rr ==> res.0.Listed? && exists k :: 0 <= k < |tails| && tails[k] == res.0.tail && res.1.rr == (k + 1) % |tails|
    ensures CursorInRange(tails, st) ==> CursorInRange(tails, res.1)
  {
    var l := st.ledger;
    if p1Pref != "" && p2Pref != "" && p1Pref == p2Pref && CanUse(tails, l, date, p1Pref) then
      (Listed(p1Pref), st.(ledger := Reserve(l, date, p1Pref)))
    else if p1Pref != "" && CanUse(tails, l, date, p1Pref) then
      (Listed(p1Pref), st.(ledger := Reserve(l, date, p1Pref)))
    else if p2Pref != "" && CanUse(tails, l, date, p2Pref) then
      (Listed(p2Pref), st.(ledger := Reserve(l, date, p2Pref)))
    else
      match Scan(tails, l, date, st.rr, 0)
      case None =>
        assert forall t :: t in tails ==> !CanUse(tails, l, date, t) by {
          forall t | t in tails ensures !CanUse(tails, l, date, t) {
            var idx :| 0 <= idx < |tails| && tails[idx] == t;
            SlotCovers(tails, st.rr, idx);
          }
        }
        (Overflow, st)
      case Some(i) =>
        var t := Slot(tails, st.rr, i);
        var k := (st.rr + i) % |tails|;
        assert (k + 1) % |tails| == (st.rr + i + 1) % |tails| by {
          ModUnique(st.rr + i + 1, |tails|, (st.rr + i) / |tails| + (k + 1) / |tails|, (k + 1) % |tails|);
        }
        (Listed(t), RunState(Reserve(l, date, t), (st.rr + i + 1) % |tails|))
  }

  /** A pick never pushes a (day, tail) entry past one pair. */
  lemma PickTailKeepsCapacity(tails: seq<string>, st: RunState, date: nat, p1Pref: string, p2Pref: string)
    ensures WithinCapacity(st.ledger) ==> WithinCapacity(PickTail(tails, st, date, p1Pref, p2Pref).1.ledger)
  {
    var res := PickTail(tails, st, date, p1Pref, p2Pref);
    if res.0.Listed? && WithinCapacity(st.ledger) {
      ReserveKeepsCapacity(st.ledger, date, res.0.tail);
    }
  }
}

=== FILE: projections.dfy ===
/** The two read-only views of a generated schedule: the tail-by-day grid,
    which files every ON pilot's name under its (day, tail) cell, and the
    calendar, which turns each shown record into a titled, coloured
    all-day event. */
module Projections {
  import opened Wrappers
  import opened Seqs
  import opened Text
  import opened Roster
  import opened Inputs

  /** The grid's index: (day, tail number) to the names placed there. */
  type CellMap = map<(nat, string), seq<string>>

  /** A record belongs in the cell of `date` and `tail`. */
  predicate InCell(a: Assignment, date: nat, tail: string) {
    a.status == On && a.date == date && a.tailNumber == tail
  }

  /** Reference definition of a cell: the names of the ON records dated
      `date` on `tail`, in output order. */
  function CellNames(out: seq<Assignment>, date: nat, tail: string): seq<string> {
    if |out| == 0 then []
    else
      var a := out[|out| - 1];
      CellNames(out[..|out| - 1], date, tail) + (if InCell(a, date, tail) then [a.pilotName] else [])
  }

  /** A missing cell reads as empty. */
  function Cell(m: CellMap, date: nat, tail: string): seq<string> {
    if (date, tail) in m then m[(date, tail)] else []
  }

  /** `cellMap`: a scan over the records that appends each ON pilot's name
      under its (day, tail) key. OFF records are skipped whatever `showOff`
      says: the first skip only fires when it is unset, and the second skip
      catches every OFF record that gets past the first. */
  function BuildCells(out: seq<Assignment>, showOff: bool): (m: CellMap)
    ensures forall k :: k in m ==> m[k] != []
  {
    if |out| == 0 then map[]
    else
      var m := BuildCells(out[..|out| - 1], showOff);
      var a := out[|out| - 1];
      if a.status == Off && !showOff then m
      else if a.status == Off then m
      else m[(a.date, a.tailNumber) := Cell(m, a.date, a.tailNumber) + [a.pilotName]]
  }

  /** Every cell of the scan is its reference definition, and a key is
      present exactly when its cell has a name. */
  lemma {:induction false} BuildCellsSpec(out: seq<Assignment>, showOff: bool, date: nat, tail: string)
    decreases |out|
    ensures Cell(BuildCells(out, showOff), date, tail) == CellNames(out, date, tail)
    ensures (date, tail) in BuildCells(out, showOff) <==> CellNames(out, date, tail) != []
  {
    if |out| > 0 {
      BuildCellsSpec(out[..|out| - 1], showOff, date, tail);
    }
  }

  /** The grid looks the same whether or not OFF records are to be shown. */
  lemma {:induction false} BuildCellsIgnoresShowOff(out: seq<Assignment>)
    decreases |out|
    ensures BuildCells(out, true) == BuildCells(out, false)
  {
    if |out| > 0 {
      BuildCellsIgnoresShowOff(out[..|out| - 1]);
    }
  }

  /** A name is in a cell exactly when some ON record of that day and tail
      carries it. */
  lemma {:induction false} CellNamesMember(out: seq<Assignment>, date: nat, tail: string, name: string)
    decreases |out|
    ensures name in CellNames(out, date, tail)
            <==> exists i :: 0 <= i < |out| && InCell(out[i], date, tail) && out[i].pilotName == name
  {
    if |out| > 0 {
      var n := |out| - 1;
      var front := out[..n];
      CellNamesMember(front, date, tail, name);
      assert forall i :: 0 <= i < n ==> front[i] == out[i];
    }
  }

  /** A cell is empty when no ON record of that day carries that tail. */
  lemma CellNamesEmpty(out: seq<Assignment>, date: nat, tail: string)
    requires forall i :: 0 <= i < |out| ==> !InCell(out[i], date, tail)
    ensures CellNames(out, date, tail) == []
  {
    if CellNames(out, date, tail) != [] {
      CellNamesMember(out, date, tail, CellNames(out, date, tail)[0]);
    }
  }

  /** The rows the grid draws: the configured tails whose number is not
      blank, in configuration order, with the number as typed. */
  function GridRows(tails: seq<Tail>): (r: seq<Tail>)
    ensures |r| <= |tails|
    ensures forall t :: t in r <==> t in tails && !Blank(t.tailNumber)
  {
    if |tails| == 0 then []
    else (if Blank(tails[0].tailNumber) then [] else [tails[0]]) + GridRows(tails[1..])
  }

  /** The rows of two tail lists joined are their rows joined, so the grid
      keeps the configured order, repeated rows included. */
  lemma {:induction false} GridRowsConcat(a: seq<Tail>, b: seq<Tail>)
    ensures GridRows(a + b) == GridRows(a) + GridRows(b)
    decreases |a|
  {
    if |a| == 0 {
      assert a + b == b;
    } else {
      assert (a + b)[0] == a[0];
      assert (a + b)[1..] == a[1..] + b;
      GridRowsCons(a + b);
      GridRowsCons(a);
      GridRowsConcat(a[1..], b);
      ConcatAssoc(GridRows([a[0]]), GridRows(a[1..]), GridRows(b));
    }
  }

  /** The first tail's row comes ahead of the rest. */
  lemma GridRowsCons(a: seq<Tail>)
    requires |a| > 0
    ensures GridRows(a) == GridRows([a[0]]) + GridRows(a[1..])
  {
    var h := if Blank(a[0].tailNumber) then [] else [a[0]];
    GridRowsOne(a[0]);
    assert GridRows(a) == h + GridRows(a[1..]);
  }

  /** One tail gives a row, as typed, unless its number is blank. */
  lemma GridRowsOne(t: Tail)
    ensures GridRows([t]) == if Blank(t.tailNumber) then [] else [t]
  {
    assert [t][1..] == [];
  }

  /** A grid cell as the page looks it up: by the row's tail number as
      typed, which is not trimmed. */
  function GridCellAsWritten(m: CellMap, date: nat, row: Tail): seq<string> {
    Cell(m, date, row.tailNumber)
  }

  /** A grid cell looked up by the trimmed tail number, the form the
      generator schedules. */
  function GridCell(m: CellMap, date: nat, row: Tail): seq<string> {
    Cell(m, date, Trim(row.tailNumber))
  }

  /** As written, the row of a tail typed with surrounding whitespace is
      empty on every day of every generated schedule. */
  lemma PaddedRowEmptyAsWritten(pilots: seq<Pilot>, tails: seq<Tail>, rawDays: Option<int>, showOff: bool, date: nat, row: Tail)
    requires Trim(row.tailNumber) != row.tailNumber
    ensures GridCellAsWritten(BuildCells(Generate(pilots, tails, rawDays), showOff), date, row) == []
  {
    PaddedRowEmpty(Generate(pilots, tails, rawDays), tails, showOff, date, row);
  }

  /** The row of a padded tail number finds nothing in any output whose
      tails are trimmed. */
  lemma PaddedRowEmpty(out: seq<Assignment>, tails: seq<Tail>, showOff: bool, date: nat, row: Tail)
    requires TailsFromConfig(out, tails)
    requires Trim(row.tailNumber) != row.tailNumber
    ensures GridCellAsWritten(BuildCells(out, showOff), date, row) == []
  {
    BuildCellsSpec(out, showOff, date, row.tailNumber);
    CellNamesEmpty(out, date, row.tailNumber);
  }

  /** A padded row hides a flown tail: the row's cell as written is
      empty, while the cell of its trimmed number lists the pilot. */
  lemma PaddedRowHidesFlown(out: seq<Assignment>, tails: seq<Tail>, showOff: bool, date: nat, row: Tail, i: nat)
    requires TailsFromConfig(out, tails)
    requires Trim(row.tailNumber) != row.tailNumber
    requires i < |out| && InCell(out[i], date, Trim(row.tailNumber))
    ensures GridCellAsWritten(BuildCells(out, showOff), date, row) == []
    ensures out[i].pilotName in GridCell(BuildCells(out, showOff), date, row)
  {
    PaddedRowEmpty(out, tails, showOff, date, row);
    BuildCellsSpec(out, showOff, date, Trim(row.tailNumber));
    CellNamesMember(out, date, Trim(row.tailNumber), out[i].pilotName);
  }

  /** With the trimmed lookup every row shows exactly the ON pilots the
      generator put on that tail that day, in output order. */
  lemma GridCellShowsSchedule(pilots: seq<Pilot>, tails: seq<Tail>, rawDays: Option<int>, showOff: bool, date: nat, row: Tail, name: string)
    ensures var out := Generate(pilots, tails, rawDays);
            && GridCell(BuildCells(out, showOff), date, row) == CellNames(out, date, Trim(row.tailNumber))
            && (name in GridCell(BuildCells(out, showOff), date, row)
                <==> exists i :: 0 <= i < |out| && InCell(out[i], date, Trim(row.tailNumber)) && out[i].pilotName == name)
  {
    GridCellShowsOutput(Generate(pilots, tails, rawDays), showOff, date, row, name);
  }

  /** For any output, the trimmed lookup of a row shows the ON pilots of
      that tail and day, in output order. */
  lemma GridCellShowsOutput(out: seq<Assignment>, showOff: bool, date: nat, row: Tail, name: string)
    ensures GridCell(BuildCells(out, showOff), date, row) == CellNames(out, date, Trim(row.tailNumber))
    ensures name in GridCell(BuildCells(out, showOff), date, row)
            <==> exists i :: 0 <= i < |out| && InCell(out[i], date, Trim(row.tailNumber)) && out[i].pilotName == name
  {
    BuildCellsSpec(out, showOff, date, Trim(row.tailNumber));
    CellNamesMember(out, date, Trim(row.tailNumber), name);
  }

  /** A calendar entry: its title, its all-day date and its colour (None
      when no colour is found, which the calendar then picks itself). */
  datatype Event = Event(title: string, date: nat, color: Option<string>)

  const OffColor: string := "#9ca3af"
  const ExtraColor: string := "#64748b"

  /** The records the calendar shows: all of them with `showOff`, otherwise
      the ON ones, in output order. */
  function Shown(out: seq<Assignment>, showOff: bool): (r: seq<Assignment>)
    ensures |r| <= |out|
    ensures forall a :: a in r <==> a in out && (showOff || a.status != Off)
  {
    if |out| == 0 then []
    else (if showOff || out[0].status != Off then [out[0]] else []) + Shown(out[1..], showOff)
  }

  /** The shown records of two outputs joined are their shown records
      joined: the calendar keeps output order and shows each record once. */
  lemma {:induction false} ShownConcat(a: seq<Assignment>, b: seq<Assignment>, showOff: bool)
    ensures Shown(a + b, showOff) == Shown(a, showOff) + Shown(b, showOff)
    decreases |a|
  {
    if |a| == 0 {
      assert a + b == b;
    } else {
      assert (a + b)[0] == a[0];
      assert (a + b)[1..] == a[1..] + b;
      ShownCons(a + b, showOff);
      ShownCons(a, showOff);
      ShownConcat(a[1..], b, showOff);
      ConcatAssoc(Shown([a[0]], showOff), Shown(a[1..], showOff), Shown(b, showOff));
    }
  }

  /** The first record is shown, or not, ahead of the rest. */
  lemma ShownCons(a: seq<Assignment>, showOff: bool)
    requires |a| > 0
    ensures Shown(a, showOff) == Shown([a[0]], showOff) + Shown(a[1..], showOff)
  {
    var h := if showOff || a[0].status != Off then [a[0]] else [];
    ShownOne(a[0], showOff);
    assert Shown(a, showOff) == h + Shown(a[1..], showOff);
  }

  /** One record is shown exactly when `showOff` is set or it is ON. */
  lemma ShownOne(x: Assignment, showOff: bool)
    ensures Shown([x], showOff) == if showOff || x.status != Off then [x] else []
  {
    assert [x][1..] == [];
  }

  /** The OFF records, in output order. */
  function Offs(out: seq<Assignment>): seq<Assignment> {
    if |out| == 0 then []
    else (if out[0].status == Off then [out[0]] else []) + Offs(out[1..])
  }

  /** With `showOff` nothing is filtered. */
  lemma {:induction false} ShownAll(out: seq<Assignment>)
    decreases |out|
    ensures Shown(out, true) == out
  {
    if |out| > 0 {
      ShownAll(out[1..]);
      assert out == [out[0]] + out[1..];
    }
  }

  /** Without `showOff` only ON records remain. */
  lemma ShownOnOnly(out: seq<Assignment>)
    ensures forall i :: 0 <= i < |Shown(out, false)| ==> Shown(out, false)[i].status == On
  {
    var s := Shown(out, false);
    forall i | 0 <= i < |s| ensures s[i].status == On {
      assert s[i] in s;
    }
  }

  /** Without `showOff` exactly the OFF records are dropped. */
  lemma {:induction false} ShownCount(out: seq<Assignment>)
    decreases |out|
    ensures |Shown(out, false)| + |Offs(out)| == |out|
  {
    if |out| > 0 {
      ShownCount(out[1..]);
    }
  }

  /** No later tail in the list has the same number as `tails[i]`. */
  predicate LastWithNumber(tails: seq<Tail>, i: nat)
    requires i < |tails|
  {
    forall j :: i < j < |tails| ==> tails[j].tailNumber != tails[i].tailNumber
  }

  /** `tailColor`: tail number to colour, set in configuration order, so
      the last tail with a given number decides its colour. */
  function TailColors(tails: seq<Tail>): (m: map<string, string>)
    ensures m.Keys == set t | t in tails :: t.tailNumber
  {
    if |tails| == 0 then map[]
    else
      var n := |tails| - 1;
      var front := tails[..n];
      assert tails == front + [tails[n]];
      TailColors(front)[tails[n].tailNumber := tails[n].colorHex]
  }

  /** The last tail with a given number decides its colour. */
  lemma {:induction false} TailColorsLast(tails: seq<Tail>)
    decreases |tails|
    ensures forall i :: 0 <= i < |tails| && LastWithNumber(tails, i) ==> TailColors(tails)[tails[i].tailNumber] == tails[i].colorHex
  {
    if |tails| > 0 {
      var n := |tails| - 1;
      var front := tails[..n];
      TailColorsLast(front);
      assert tails == front + [tails[n]];
      assert forall i :: 0 <= i < n ==> front[i] == tails[i];
      assert forall i :: 0 <= i < n && LastWithNumber(tails, i) ==> LastWithNumber(front, i);
    }
  }

  /** The title: the pilot and "(OFF)" for an OFF record, otherwise the
      tail, an em dash and the pilot. */
  function EventTitle(a: Assignment): string {
    if a.status == Off then a.pilotName + " (OFF)" else a.tailNumber + " — " + a.pilotName
  }

  /** The colour: grey for OFF, slate for the overflow bucket, otherwise the
      tail's configured colour if the lookup finds one. */
  function EventColor(a: Assignment, colors: map<string, string>): (c: Option<string>)
    ensures a.status == Off ==> c == Some(OffColor)
    ensures a.status == On && a.tailNumber == Extra ==> c == Some(ExtraColor)
    ensures a.status == On && a.tailNumber != Extra ==>
              (c.Some? <==> a.tailNumber in colors) && (c.Some? ==> c.value == colors[a.tailNumber])
  {
    if a.status == Off then Some(OffColor)
    else if a.tailNumber == Extra then Some(ExtraColor)
    else if a.tailNumber in colors then Some(colors[a.tailNumber])
    else None
  }

  /** The event of one shown record. */
  function ToEvent(a: Assignment, colors: map<string, string>): Event {
    Event(EventTitle(a), a.date, EventColor(a, colors))
  }

  /** `fcEvents` without the trips: one event per shown record, in output
      order. */
  function CalendarEvents(out: seq<Assignment>, showOff: bool, colors: map<string, string>): (r: seq<Event>)
    ensures |r| == |Shown(out, showOff)|
    ensures forall i :: 0 <= i < |r| ==> r[i] == ToEvent(Shown(out, showOff)[i], colors)
  {
    var s := Shown(out, showOff);
    seq(|s|, i requires 0 <= i < |s| => ToEvent(s[i], colors))
  }

  /** The events of two outputs joined are their events joined: one event
      per shown record, in output order. */
  lemma CalendarEventsConcat(a: seq<Assignment>, b: seq<Assignment>, showOff: bool, colors: map<string, string>)
    ensures CalendarEvents(a + b, showOff, colors) == CalendarEvents(a, showOff, colors) + CalendarEvents(b, showOff, colors)
  {
    var x := CalendarEvents(a, showOff, colors);
    var y := CalendarEvents(b, showOff, colors);
    var z := CalendarEvents(a + b, showOff, colors);
    ShownConcat(a, b, showOff);
    var sa := Shown(a, showOff);
    var sb := Shown(b, showOff);
    assert Shown(a + b, showOff) == sa + sb;
    forall i | 0 <= i < |z| ensures z[i] == (x + y)[i] {
      if i < |x| {
        assert (sa + sb)[i] == sa[i];
      } else {
        assert (sa + sb)[i] == sb[i - |x|];
      }
    }
  }

  /** A single record gives its own event when it is shown, and nothing
      otherwise. */
  lemma CalendarEventsOne(x: Assignment, showOff: bool, colors: map<string, string>)
    ensures CalendarEvents([x], showOff, colors)
            == if showOff || x.status != Off then [ToEvent(x, colors)] else []
  {
    ShownOne(x, showOff);
  }

  /** With `showOff`, record i of the output is event i. */
  lemma CalendarEventsAll(out: seq<Assignment>, colors: map<string, string>)
    ensures |CalendarEvents(out, true, colors)| == |out|
    ensures forall i :: 0 <= i < |out| ==> CalendarEvents(out, true, colors)[i] == ToEvent(out[i], colors)
  {
    ShownAll(out);
  }

  /** Without `showOff`, the calendar has one event fewer per OFF record. */
  lemma CalendarEventsCount(out: seq<Assignment>, colors: map<string, string>)
    ensures |CalendarEvents(out, false, colors)| + |Offs(out)| == |out|
  {
    ShownCount(out);
  }

  /** An event's title tells OFF from ON: an OFF title is the pilot's name
      followed by " (OFF)", an ON title is the tail, the separator and the
      pilot's name. */
  lemma EventTitleShape(a: Assignment)
    ensures a.status == Off ==> EventTitle(a)[..|a.pilotName|] == a.pilotName
                                && EventTitle(a)[|a.pilotName|..] == " (OFF)"
    ensures a.status == On ==> EventTitle(a)[..|a.tailNumber|] == a.tailNumber
                               && EventTitle(a)[|EventTitle(a)| - |a.pilotName|..] == a.pilotName
  {
  }

  /** The colour map as the page builds it: from the tails as typed. */
  function ColorsAsWritten(tails: seq<Tail>): map<string, string> {
    TailColors(tails)
  }

  /** The colour map built from the cleaned tails the generator schedules. */
  function Colors(tails: seq<Tail>): map<string, string> {
    TailColors(CleanTails(tails))
  }

  /** Every trimmed configured number has a colour in the cleaned map. */
  lemma CleanNumberColored(tails: seq<Tail>, t: string)
    requires t in CleanNumbers(tails)
    ensures t in Colors(tails)
  {
    var u :| u in tails && !Blank(u.tailNumber) && Trim(u.tailNumber) == t;
    assert u.(tailNumber := Trim(u.tailNumber)) in CleanTails(tails);
  }

  predicate AllColored(ev: seq<Event>) {
    forall i :: 0 <= i < |ev| ==> ev[i].color.Some?
  }

  /** With the cleaned colour map every event of a generated schedule has
      a colour. */
  lemma EveryEventColored(pilots: seq<Pilot>, tails: seq<Tail>, rawDays: Option<int>, showOff: bool)
    ensures AllColored(CalendarEvents(Generate(pilots, tails, rawDays), showOff, Colors(tails)))
  {
    EventsColored(Generate(pilots, tails, rawDays), tails, showOff);
  }

  /** Every event of an output scheduled from `tails` finds its colour in
      the cleaned colour map. */
  lemma EventsColored(out: seq<Assignment>, tails: seq<Tail>, showOff: bool)
    requires TailsFromConfig(out, tails)
    ensures AllColored(CalendarEvents(out, showOff, Colors(tails)))
  {
    var s := Shown(out, showOff);
    var ev := CalendarEvents(out, showOff, Colors(tails));
    forall i | 0 <= i < |ev| ensures ev[i].color.Some? {
      assert s[i] in out;
      MemberColored(out, tails, s[i]);
    }
  }

  /** Any record of an output scheduled from `tails` has a colour in the
      cleaned map. */
  lemma MemberColored(out: seq<Assignment>, tails: seq<Tail>, a: Assignment)
    requires TailsFromConfig(out, tails)
    requires a in out
    ensures EventColor(a, Colors(tails)).Some?
  {
    var j :| 0 <= j < |out| && out[j] == a;
    RecordColored(out[j], tails);
  }

  /** A record that is OFF, in the overflow bucket, or on a cleaned
      configured number has a colour in the cleaned map. */
  lemma RecordColored(a: Assignment, tails: seq<Tail>)
    requires a.status == On && a.tailNumber != Extra ==> a.tailNumber in CleanNumbers(tails)
    ensures EventColor(a, Colors(tails)).Some?
  {
    if a.status == On && a.tailNumber != Extra {
      CleanNumberColored(tails, a.tailNumber);
    }
  }
}

=== FILE: roster.dfy ===
/** The scheduler's vocabulary: pilots with an on/off rotation, tails
    (aircraft), the per-day assignment records it emits, and the duty-cycle
    resolver that decides whether a pilot flies on a given day. */
module Roster {

  /** A roster entry. `preferredTail` is "" when the pilot has no preference
      (JavaScript treats "" and a missing value alike). */
  datatype Pilot = Pilot(name: string, onDays: int, offDays: int, preferredTail: string)

  datatype Tail = Tail(tailNumber: string, colorHex: string)

  datatype Status = On | Off

  /** One output record. Days are indices counted from the schedule's start
      date; distinct indices are distinct calendar dates. */
  datatype Assignment = Assignment(date: nat, pilotName: string, status: Status, tailNumber: string)

  /** The overflow bucket for ON pilots that got no aircraft. */
  const Extra: string := "EXTRA"

  /** Pilot names key the per-day tail lookup, so they must be distinct. */
  predicate UniqueNames(ps: seq<Pilot>) {
    forall i, j :: 0 <= i < j < |ps| ==> ps[i].name != ps[j].name
  }

  /** Length of one rotation, clamped to at least one day. */
  function CycleLength(p: Pilot): (c: int)
    ensures c >= 1
    ensures c >= p.onDays + p.offDays
    ensures p.onDays + p.offDays >= 1 ==> c == p.onDays + p.offDays
  {
    if p.onDays + p.offDays > 1 then p.onDays + p.offDays else 1
  }

  /** Every pilot's cycle is anchored at day 0: the pilot is ON while the
      position inside the current cycle is below `onDays`. */
  function DutyStatus(p: Pilot, day: nat): Status {
    if day % CycleLength(p) < p.onDays then On else Off
  }

  /** A pilot with no ON days never flies. */
  lemma NoOnDaysAlwaysOff(p: Pilot, day: nat)
    requires p.onDays <= 0
    ensures DutyStatus(p, day) == Off
  {
  }

  /** A pilot with no OFF days flies every day. */
  lemma NoOffDaysAlwaysOn(p: Pilot, day: nat)
    requires p.onDays >= 1 && p.offDays <= 0
    ensures DutyStatus(p, day) == On
  {
  }

  lemma MulAtLeast(a: int, c: int)
    requires a >= 1 && c >= 1
    ensures a * c >= c
  {
  }

  /** Euclidean division has one remainder: any `q * c + r` with
      `0 <= r < c` leaves remainder `r`. */
  lemma ModUnique(x: int, c: int, q: int, r: int)
    requires c >= 1 && 0 <= r < c && x == q * c + r
    ensures x % c == r
  {
    var q', r' := x / c, x % c;
    assert (q - q') * c == r' - r;
    if q > q' {
      MulAtLeast(q - q', c);
    } else if q < q' {
      MulAtLeast(q' - q, c);
    }
  }

  lemma ModShift(day: nat, k: nat, c: int)
    requires c >= 1
    ensures (day + k * c) % c == day % c
  {
    assert day + k * c == (day / c + k) * c + day % c;
    ModUnique(day + k * c, c, day / c + k, day % c);
  }

  /** The rotation repeats with period `CycleLength(p)`. */
  lemma DutyPeriodic(p: Pilot, day: nat, k: nat)
    ensures DutyStatus(p, day + k * CycleLength(p)) == DutyStatus(p, day)
  {
    ModShift(day, k, CycleLength(p));
  }

  /** Within the first cycle of a well-formed rotation the pilot is ON for
      exactly the first `onDays` days and OFF for the remaining `offDays`. */
  lemma DutyFirstCycle(p: Pilot, day: nat)
    requires p.onDays >= 0 && p.offDays >= 0 && p.onDays + p.offDays >= 1
    requires day < p.onDays + p.offDays
    ensures DutyStatus(p, day) == On <==> day < p.onDays
  {
  }

  /** The whole rotation: on any day the status is that of the same position
      in the first cycle, so ON exactly when that position is below `onDays`. */
  lemma DutyPosition(p: Pilot, day: nat)
    requires p.onDays >= 0 && p.offDays >= 0 && p.onDays + p.offDays >= 1
    ensures DutyStatus(p, day) == DutyStatus(p, day % CycleLength(p))
    ensures DutyStatus(p, day) == On <==> day % (p.onDays + p.offDays) < p.onDays
  {
    var c := CycleLength(p);
    ModUnique(day % c, c, 0, day % c);
  }
}

=== FILE: schedule_properties.dfy ===
/** What a generated schedule promises as a whole: its row-major shape, and,
    for every day, that ON pilots are paired consecutively, that partners
    share a tail, that the odd pilot out is in the overflow bucket, and that
    no listed tail carries more than one pair. */
module ScheduleProperties {
  import opened Roster
  import opened Ledger
  import opened PairPolicy
  import opened Generator

  /** The tails of the ON records dated `d`, in output order. */
  function OnTailsAt(out: seq<Assignment>, d: nat): seq<string> {
    if |out| == 0 then []
    else (if out[0].date == d && out[0].status == On then [out[0].tailNumber] else []) + OnTailsAt(out[1..], d)
  }

  lemma {:induction false} OnTailsAtConcat(a: seq<Assignment>, b: seq<Assignment>, d: nat)
    ensures OnTailsAt(a + b, d) == OnTailsAt(a, d) + OnTailsAt(b, d)
    decreases |a|
  {
    if |a| == 0 {
      assert a + b == b;
    } else {
      assert (a + b)[0] == a[0];
      assert (a + b)[1..] == a[1..] + b;
      OnTailsAtConcat(a[1..], b, d);
    }
  }

  lemma {:induction false} OnTailsAtAbsent(out: seq<Assignment>, d: nat)
    requires forall i :: 0 <= i < |out| ==> out[i].date != d
    ensures OnTailsAt(out, d) == []
    decreases |out|
  {
    if |out| > 0 {
      OnTailsAtAbsent(out[1..], d);
    }
  }

  /** Distinct roster names stay distinct among the day's ON pilots. */
  lemma {:induction false} OnPilotsUnique(ps: seq<Pilot>, day: nat)
    requires UniqueNames(ps)
    ensures UniqueNames(OnPilots(ps, day))
    decreases |ps|
  {
    if |ps| > 0 {
      var rest := OnPilots(ps[1..], day);
      assert UniqueNames(ps[1..]) by {
        forall i, j | 0 <= i < j < |ps[1..]| ensures ps[1..][i].name != ps[1..][j].name {
          assert ps[1..][i] == ps[i + 1] && ps[1..][j] == ps[j + 1];
        }
      }
      OnPilotsUnique(ps[1..], day);
      if DutyStatus(ps[0], day) == On {
        var on := [ps[0]] + rest;
        forall i, j | 0 <= i < j < |on| ensures on[i].name != on[j].name {
          if i == 0 {
            assert on[j] in rest;
            OnPilotsMembers(ps[1..], day);
            assert on[j] in ps[1..];
            var k :| 0 <= k < |ps[1..]| && ps[1..][k] == on[j];
            assert ps[k + 1] == on[j];
          } else {
            assert on[i] == rest[i - 1] && on[j] == rest[j - 1];
          }
        }
      }
    }
  }

  /** Looking every roster pilot up in a map that sends each ON pilot to its
      tail yields exactly those tails, in roster order, as the day's ON
      records. */
  lemma {:induction false} DayRecordsOnTails(ps: seq<Pilot>, d: nat, m: map<string, string>, ts: seq<string>)
    requires |ts| == |OnPilots(ps, d)|
    requires forall k :: 0 <= k < |ts| ==> OnPilots(ps, d)[k].name in m && m[OnPilots(ps, d)[k].name] == ts[k]
    ensures OnTailsAt(DayRecords(ps, d, m), d) == ts
    decreases |ps|
  {
    if |ps| > 0 {
      var on := OnPilots(ps, d);
      var rest := OnPilots(ps[1..], d);
      var head := [Record(ps[0], d, m)];
      assert DayRecords(ps, d, m) == head + DayRecords(ps[1..], d, m);
      OnTailsAtConcat(head, DayRecords(ps[1..], d, m), d);
      assert OnTailsAt(head, d) == (if head[0].status == On then [head[0].tailNumber] else []) + OnTailsAt(head[1..], d);
      if DutyStatus(ps[0], d) == On {
        assert on == [ps[0]] + rest;
        assert rest == on[1..];
        DayRecordsOnTails(ps[1..], d, m, ts[1..]);
        assert ts == [ts[0]] + ts[1..];
      } else {
        assert on == rest;
        DayRecordsOnTails(ps[1..], d, m, ts);
      }
    }
  }

  /** One step of the fold: the day's block followed by the rest of the run. */
  lemma GenerateFromStep(tails: seq<string>, pilots: seq<Pilot>, days: nat, day: nat, st: RunState)
    requires day < days
    ensures GenerateFrom(tails, pilots, days, day, st)
            == DayBlock(tails, pilots, day, st) + GenerateFrom(tails, pilots, days, day + 1, NextState(tails, pilots, day, st))
  {
  }

  /** What one day's ON tails `v` look like for that day's ON pilots `on`:
      one tail per ON pilot; consecutive pilots share a tail; an odd one out
      is in the overflow bucket; no tail other than the bucket carries more
      than two pilots (one pair); and the first pair flies the first
      pilot's preferred tail whenever that tail is listed. */
  predicate PairedDay(v: seq<string>, on: seq<Pilot>, tails: seq<string>) {
    && |v| == |on|
    && PairedUp(v)
    && (forall t :: t in v && t != Extra ==> multiset(v)[t] <= 2)
    && (|on| >= 2 && on[0].preferredTail in tails ==> v[0] == on[0].preferredTail && v[1] == on[0].preferredTail)
  }

  /** A day entered with a ledger that is within capacity and holds nothing
      for that day yet hands out tails shaped as `PairedDay` says. */
  lemma AssignDayPaired(tails: seq<string>, st: RunState, day: nat, on: seq<Pilot>)
    requires forall t :: t in tails ==> t != ""
    requires WithinCapacity(st.ledger)
    requires forall k :: k in st.ledger ==> k.0 < day
    ensures PairedDay(AssignDay(tails, st, day, on).0, on, tails)
  {
    var res := AssignDay(tails, st, day, on);
    AssignDayPairs(tails, st, day, on);
    AssignDayLedger(tails, st, day, on);
    assert LedgerStep(tails, st, day, res);
    assert WithinCapacity(res.1.ledger);
    var v := res.0;
    forall t | t in v && t != Extra ensures multiset(v)[t] <= 2 {
      assert multiset(v)[t] == 2 * (PairsUsed(res.1.ledger, day, t) - PairsUsed(st.ledger, day, t));
      assert (day, t) !in st.ledger;
      if (day, t) in res.1.ledger {
        assert res.1.ledger[(day, t)] <= MaxPairsPerTailPerDay;
      }
    }
    if |on| >= 2 && on[0].preferredTail in tails {
      assert (day, on[0].preferredTail) !in st.ledger;
      AssignDayPreferred(tails, st, day, on);
    }
  }

  /** The state a day hands on is within capacity and holds nothing for
      later days. */
  lemma AssignDayNext(tails: seq<string>, st: RunState, day: nat, on: seq<Pilot>)
    requires WithinCapacity(st.ledger)
    requires forall k :: k in st.ledger ==> k.0 < day
    ensures WithinCapacity(AssignDay(tails, st, day, on).1.ledger)
    ensures forall k :: k in AssignDay(tails, st, day, on).1.ledger ==> k.0 < day + 1
  {
    AssignDayLedger(tails, st, day, on);
  }

  /** A state a run can enter `day` with: within capacity, nothing booked
      for `day` or later. */
  ghost predicate Entry(st: RunState, day: nat) {
    WithinCapacity(st.ledger) && forall k :: k in st.ledger ==> k.0 < day
  }

  lemma EntryNext(tails: seq<string>, pilots: seq<Pilot>, day: nat, st: RunState)
    requires Entry(st, day)
    ensures Entry(NextState(tails, pilots, day, st), day + 1)
  {
    AssignDayNext(tails, st, day, OnPilots(pilots, day));
  }

  /** The state a run entered at `day` in state `st` has reached when it
      enters day `d`. */
  function StateAt(tails: seq<string>, pilots: seq<Pilot>, day: nat, st: RunState, d: nat): RunState
    decreases d - day
  {
    if day >= d then st else StateAt(tails, pilots, day + 1, NextState(tails, pilots, day, st), d)
  }

  /** Every state a run reaches is one a day can be entered with. */
  lemma {:induction false} StateAtEntry(tails: seq<string>, pilots: seq<Pilot>, day: nat, st: RunState, d: nat)
    requires Entry(st, day) && day <= d
    decreases d - day
    ensures Entry(StateAt(tails, pilots, day, st, d), d)
  {
    if day < d {
      EntryNext(tails, pilots, day, st);
      StateAtEntry(tails, pilots, day + 1, NextState(tails, pilots, day, st), d);
    }
  }

  /** The ON tails of a day's block are the tails the day hands out, in
      roster order. */
  lemma DayBlockOnTails(tails: seq<string>, pilots: seq<Pilot>, day: nat, st: RunState)
    requires UniqueNames(pilots)
    ensures OnTailsAt(DayBlock(tails, pilots, day, st), day) == AssignDay(tails, st, day, OnPilots(pilots, day)).0
  {
    var on := OnPilots(pilots, day);
    var ts := AssignDay(tails, st, day, on).0;
    OnPilotsUnique(pilots, day);
    TailForPilotOwn(on, ts);
    DayRecordsOnTails(pilots, day, TailForPilot(on, ts), ts);
  }

  /** Only the records of a day contribute to its ON tails. */
  lemma {:induction false} OnTailsAtRecords(out: seq<Assignment>, d: nat)
    decreases |out|
    ensures OnTailsAt(RecordsAt(out, d), d) == OnTailsAt(out, d)
  {
    if |out| > 0 {
      OnTailsAtRecords(out[1..], d);
      var head := if out[0].date == d then [out[0]] else [];
      assert RecordsAt(out, d) == head + RecordsAt(out[1..], d);
      OnTailsAtConcat(head, RecordsAt(out[1..], d), d);
      if |head| == 1 {
        assert head[1..] == [];
      }
    }
  }

  /** Some ON record dated `d` flies `t`. */
  predicate Flown(out: seq<Assignment>, d: nat, t: string) {
    exists i :: 0 <= i < |out| && out[i].status == On && out[i].date == d && out[i].tailNumber == t
  }

  /** Every ON tail of a day comes from an ON record of that day. */
  lemma {:induction false} OnTailsAtSource(out: seq<Assignment>, d: nat, k: nat)
    requires k < |OnTailsAt(out, d)|
    decreases |out|
    ensures Flown(out, d, OnTailsAt(out, d)[k])
  {
    var head := if out[0].date == d && out[0].status == On then [out[0].tailNumber] else [];
    var rest := OnTailsAt(out[1..], d);
    assert OnTailsAt(out, d) == head + rest;
    if k >= |head| {
      OnTailsAtSource(out[1..], d, k - |head|);
      var i :| 0 <= i < |out[1..]| && out[1..][i].status == On && out[1..][i].date == d && out[1..][i].tailNumber == rest[k - |head|];
      assert out[i + 1] == out[1..][i];
    }
  }

  /** On a day with at least two ON pilots, a listed preference of the
      first of them is flown that day: nothing can have taken the tail
      before the day's first pair. */
  lemma PreferredTailFlown(pilots: seq<Pilot>, tails: seq<Tail>, days: nat, d: nat)
    requires UniqueNames(pilots)
    requires d < days
    requires |OnPilots(pilots, d)| >= 2 && OnPilots(pilots, d)[0].preferredTail in TailNumbers(tails)
    ensures Flown(GenerateSchedule(pilots, tails, days), d, OnPilots(pilots, d)[0].preferredTail)
  {
    var out := GenerateSchedule(pilots, tails, days);
    ScheduleDayView(pilots, tails, days, d);
    OnTailsAtSource(out, d, 0);
  }

  /** The records dated `d`, in output order. */
  function RecordsAt(out: seq<Assignment>, d: nat): seq<Assignment> {
    if |out| == 0 then []
    else (if out[0].date == d then [out[0]] else []) + RecordsAt(out[1..], d)
  }

  lemma {:induction false} RecordsAtConcat(a: seq<Assignment>, b: seq<Assignment>, d: nat)
    ensures RecordsAt(a + b, d) == RecordsAt(a, d) + RecordsAt(b, d)
    decreases |a|
  {
    if |a| == 0 {
      assert a + b == b;
    } else {
      var head := if a[0].date == d then [a[0]] else [];
      assert (a + b)[0] == a[0];
      assert (a + b)[1..] == a[1..] + b;
      RecordsAtConcat(a[1..], b, d);
      assert RecordsAt(a + b, d) == head + (RecordsAt(a[1..], d) + RecordsAt(b, d));
      assert RecordsAt(a, d) == head + RecordsAt(a[1..], d);
    }
  }

  lemma {:induction false} RecordsAtAbsent(out: seq<Assignment>, d: nat)
    requires forall i :: 0 <= i < |out| ==> out[i].date != d
    ensures RecordsAt(out, d) == []
    decreases |out|
  {
    if |out| > 0 {
      RecordsAtAbsent(out[1..], d);
    }
  }

  lemma {:induction false} RecordsAtAll(out: seq<Assignment>, d: nat)
    requires forall a :: a in out ==> a.date == d
    ensures RecordsAt(out, d) == out
    decreases |out|
  {
    if |out| > 0 {
      assert forall a :: a in out[1..] ==> a in out;
      RecordsAtAll(out[1..], d);
      assert out == [out[0]] + out[1..];
    }
  }

  /** Day `d` of the output lists the roster in roster order, each pilot
      with its duty status for `d`. */
  predicate RosterDay(v: seq<Assignment>, pilots: seq<Pilot>, d: nat) {
    && |v| == |pilots|
    && forall j :: 0 <= j < |pilots| ==>
         v[j].date == d && v[j].pilotName == pilots[j].name && v[j].status == DutyStatus(pilots[j], d)
  }

  /** A day's block lists the roster in roster order, each pilot with its
      duty status for that day. */
  lemma DayBlockRoster(tails: seq<string>, pilots: seq<Pilot>, day: nat, st: RunState)
    ensures RosterDay(DayBlock(tails, pilots, day, st), pilots, day)
  {
    var on := OnPilots(pilots, day);
    DayRecordsAt(pilots, day, TailForPilot(on, AssignDay(tails, st, day, on).0));
  }

  lemma DayBlockDated(tails: seq<string>, pilots: seq<Pilot>, day: nat, st: RunState)
    ensures forall i :: 0 <= i < |DayBlock(tails, pilots, day, st)| ==> DayBlock(tails, pilots, day, st)[i].date == day
    ensures forall a :: a in DayBlock(tails, pilots, day, st) ==> a.date == day
  {
    DayBlockRoster(tails, pilots, day, st);
  }

  /** The records of the day a run enters with are that day's block. */
  lemma RecordsAtHere(tails: seq<string>, pilots: seq<Pilot>, days: nat, day: nat, st: RunState)
    requires forall t :: t in tails ==> t != ""
    requires day < days
    ensures RecordsAt(GenerateFrom(tails, pilots, days, day, st), day) == DayBlock(tails, pilots, day, st)
  {
    var block := DayBlock(tails, pilots, day, st);
    var next := NextState(tails, pilots, day, st);
    var rest := GenerateFrom(tails, pilots, days, day + 1, next);
    GenerateFromStep(tails, pilots, days, day, st);
    RecordsAtConcat(block, rest, day);
    DayBlockDated(tails, pilots, day, st);
    RecordsAtAll(block, day);
    GenerateFromRecordsOk(tails, pilots, days, day + 1, next);
    RecordsAtAbsent(rest, day);
  }

  /** The records of a later day do not depend on the entry day's block. */
  lemma RecordsAtLater(tails: seq<string>, pilots: seq<Pilot>, days: nat, day: nat, st: RunState, d: nat)
    requires day < d < days
    ensures RecordsAt(GenerateFrom(tails, pilots, days, day, st), d)
            == RecordsAt(GenerateFrom(tails, pilots, days, day + 1, NextState(tails, pilots, day, st)), d)
  {
    var block := DayBlock(tails, pilots, day, st);
    var rest := GenerateFrom(tails, pilots, days, day + 1, NextState(tails, pilots, day, st));
    GenerateFromStep(tails, pilots, days, day, st);
    RecordsAtConcat(block, rest, d);
    DayBlockDated(tails, pilots, day, st);
    RecordsAtAbsent(block, d);
  }

  /** In a run entered at `day`, the records of any later day `d` are the
      block that day emits from the state the run has reached by then. */
  lemma {:induction false} GenerateFromDay(tails: seq<string>, pilots: seq<Pilot>, days: nat, day: nat, st: RunState, d: nat)
    requires forall t :: t in tails ==> t != ""
    requires day <= d < days
    decreases days - day
    ensures RecordsAt(GenerateFrom(tails, pilots, days, day, st), d) == DayBlock(tails, pilots, d, StateAt(tails, pilots, day, st, d))
  {
    if d == day {
      RecordsAtHere(tails, pilots, days, day, st);
    } else {
      GenerateFromDay(tails, pilots, days, day + 1, NextState(tails, pilots, day, st), d);
      RecordsAtLater(tails, pilots, days, day, st, d);
    }
  }

  /** Every day of a generated schedule, for a roster with distinct names,
      is shaped as `PairedDay` says, over the day's ON pilots in roster
      order and the schedulable tails. */
  lemma ScheduleDayView(pilots: seq<Pilot>, tails: seq<Tail>, days: nat, d: nat)
    requires UniqueNames(pilots)
    requires d < days
    ensures PairedDay(OnTailsAt(GenerateSchedule(pilots, tails, days), d), OnPilots(pilots, d), TailNumbers(tails))
  {
    var ts := TailNumbers(tails);
    var out := GenerateSchedule(pilots, tails, days);
    var st := StateAt(ts, pilots, 0, InitialState, d);
    var v := AssignDay(ts, st, d, OnPilots(pilots, d)).0;
    GenerateFromDay(ts, pilots, days, 0, InitialState, d);
    OnTailsAtRecords(out, d);
    DayBlockOnTails(ts, pilots, d, st);
    StateAtEntry(ts, pilots, 0, InitialState, d);
    AssignDayPaired(ts, st, d, OnPilots(pilots, d));
    assert OnTailsAt(out, d) == v;
  }

  /** Dates never go back. */
  predicate Ordered(r: seq<Assignment>) {
    forall i, j :: 0 <= i < j < |r| ==> r[i].date <= r[j].date
  }

  /** Records of a run entered at `day` never go back in time. */
  lemma {:induction false} GenerateFromOrdered(tails: seq<string>, pilots: seq<Pilot>, days: nat, day: nat, st: RunState)
    requires forall t :: t in tails ==> t != ""
    decreases days - day
    ensures Ordered(GenerateFrom(tails, pilots, days, day, st))
  {
    if day < days {
      var next := NextState(tails, pilots, day, st);
      var block := DayBlock(tails, pilots, day, st);
      var rest := GenerateFrom(tails, pilots, days, day + 1, next);
      GenerateFromStep(tails, pilots, days, day, st);
      GenerateFromOrdered(tails, pilots, days, day + 1, next);
      GenerateFromRecordsOk(tails, pilots, days, day + 1, next);
      DayBlockDated(tails, pilots, day, st);
      assert forall k :: 0 <= k < |rest| ==> day < rest[k].date;
      OrderedConcat(block, rest, day);
    }
  }

  /** A block dated `day` followed by an ordered run of later records is
      ordered. */
  lemma OrderedConcat(a: seq<Assignment>, b: seq<Assignment>, day: nat)
    requires forall k :: 0 <= k < |a| ==> a[k].date == day
    requires forall k :: 0 <= k < |b| ==> day < b[k].date
    requires Ordered(b)
    ensures Ordered(a + b)
  {
    var r := a + b;
    forall i, j | 0 <= i < j < |r| ensures r[i].date <= r[j].date {
      if j < |a| {
        assert r[i] == a[i] && r[j] == a[j];
      } else if i < |a| {
        assert r[i] == a[i];
        assert r[j] == b[j - |a|];
      } else {
        assert r[i] == b[i - |a|] && r[j] == b[j - |a|];
      }
    }
  }

  /** The output runs day by day, and each day lists the whole roster in
      roster order with each pilot's duty status for that day; there are
      `days * |pilots|` records in all. */
  lemma ScheduleLayout(pilots: seq<Pilot>, tails: seq<Tail>, days: nat, d: nat)
    requires d < days
    ensures var r := GenerateSchedule(pilots, tails, days);
            && Ordered(r)
            && RosterDay(RecordsAt(r, d), pilots, d)
  {
    assert GenerateSchedule(pilots, tails, days) == GenerateFrom(TailNumbers(tails), pilots, days, 0, InitialState);
    GenerateFromOrdered(TailNumbers(tails), pilots, days, 0, InitialState);
    GenerateFromDay(TailNumbers(tails), pilots, days, 0, InitialState, d);
    DayBlockRoster(TailNumbers(tails), pilots, d, StateAt(TailNumbers(tails), pilots, 0, InitialState, d));
  }
}

=== FILE: seqs.dfy ===
/** Facts about sequences that the list filters of both pages share. */
module Seqs {

  /** Joining is associative. Stated once, generically, so that proofs
      about particular filters need not rediscover it among their own
      facts. */
  lemma ConcatAssoc<T>(x: seq<T>, y: seq<T>, z: seq<T>)
    ensures x + (y + z) == (x + y) + z
  {
  }
}

=== FILE: text.dfy ===
/** Strings as the dashboard's JavaScript sees them: whitespace trimming,
    upper-casing of airport codes and the relational `<` on strings. */
module Text {

  /** The characters `String.prototype.trim` strips: ECMAScript WhiteSpace
      and LineTerminator code points. */
  predicate IsSpace(c: char) {
    || c == ' ' || c == '\t' || c == '\n' || c == '\r'
    || c == '\U{000B}' || c == '\U{000C}' || c == '\U{00A0}' || c == '\U{1680}'
    || ('\U{2000}' <= c <= '\U{200A}')
    || c == '\U{2028}' || c == '\U{2029}' || c == '\U{202F}' || c == '\U{205F}'
    || c == '\U{3000}' || c == '\U{FEFF}'
  }

  predicate AllSpace(s: string) {
    forall i :: 0 <= i < |s| ==> IsSpace(s[i])
  }

  /** Drops leading whitespace; the result is a suffix of `s` that starts
      with a non-space character or is empty. */
  function TrimStart(s: string): (r: string)
    ensures |r| <= |s| && r == s[|s| - |r|..]
    ensures AllSpace(s[..|s| - |r|])
    ensures |r| > 0 ==> !IsSpace(r[0])
  {
    if |s| > 0 && IsSpace(s[0]) then TrimStart(s[1..]) else s
  }

  /** Drops trailing whitespace; the result is a prefix of `s` that ends
      with a non-space character or is empty. */
  function TrimEnd(s: string): (r: string)
    ensures |r| <= |s| && r == s[..|r|]
    ensures AllSpace(s[|r|..])
    ensures |r| > 0 ==> !IsSpace(r[|r| - 1])
  {
    if |s| > 0 && IsSpace(s[|s| - 1]) then TrimEnd(s[..|s| - 1]) else s
  }

  /** Number of leading whitespace characters of `s`. */
  function Lead(s: string): (n: nat)
    ensures n <= |s|
  {
    |s| - |TrimStart(s)|
  }

  /** `s.trim()`: `s` is the result with whitespace padding on both sides,
      and the result neither starts nor ends with whitespace. */
  function Trim(s: string): (r: string)
    ensures Lead(s) + |r| <= |s| && r == s[Lead(s)..Lead(s) + |r|]
    ensures AllSpace(s[..Lead(s)]) && AllSpace(s[Lead(s) + |r|..])
    ensures |r| > 0 ==> !IsSpace(r[0]) && !IsSpace(r[|r| - 1])
  {
    TrimSlices(s, TrimStart(s), TrimEnd(TrimStart(s)), Lead(s));
    TrimEnd(TrimStart(s))
  }

  /** The slices of `s` around its trimmed core. */
  lemma TrimSlices(s: string, a: string, r: string, n: nat)
    requires n <= |s| && a == s[n..]
    requires |r| <= |a| && r == a[..|r|]
    ensures n + |r| <= |s| && r == s[n..n + |r|]
    ensures s[n + |r|..] == a[|r|..]
  {
  }

  /** A string with no whitespace at either end is its own trim. */
  lemma TrimOfTrimmed(s: string)
    requires |s| == 0 || (!IsSpace(s[0]) && !IsSpace(s[|s| - 1]))
    ensures Trim(s) == s
  {
    TrimStartOfTrimmed(s);
    TrimEndOfTrimmed(s);
  }

  /** A leading whitespace character does not survive the trim. */
  lemma TrimDropsLeadingSpace(c: char, s: string)
    requires IsSpace(c)
    ensures Trim([c] + s) == Trim(s)
  {
    assert ([c] + s)[1..] == s;
    assert TrimStart([c] + s) == TrimStart(s);
  }

  /** A string is blank (falsy after `.trim()`) exactly when every character
      is whitespace. */
  predicate Blank(s: string) {
    Trim(s) == ""
  }

  lemma {:induction false} TrimStartOfTrimmed(s: string)
    requires |s| == 0 || !IsSpace(s[0])
    ensures TrimStart(s) == s
  {
  }

  lemma {:induction false} TrimEndOfTrimmed(s: string)
    requires |s| == 0 || !IsSpace(s[|s| - 1])
    ensures TrimEnd(s) == s
  {
  }

  /** Trimming twice is trimming once. */
  lemma TrimIdempotent(s: string)
    ensures Trim(Trim(s)) == Trim(s)
  {
    var r := Trim(s);
    TrimStartOfTrimmed(r);
    TrimEndOfTrimmed(r);
  }

  lemma TrimStartAllSpace(s: string)
    ensures TrimStart(s) == "" <==> AllSpace(s)
  {
    var r := TrimStart(s);
    if r == "" {
      assert s[..|s|] == s;
    } else {
      assert r[0] == s[|s| - |r|];
    }
  }

  /** Blankness in both directions: only whitespace survives nothing of trim. */
  lemma BlankIff(s: string)
    ensures Blank(s) <==> AllSpace(s)
  {
    var a := TrimStart(s);
    TrimStartAllSpace(s);
    if a != "" {
      assert !IsSpace(a[0]);
      assert a[0..] == a;
    }
  }

  /** `toUpperCase` restricted to ASCII letters. */
  function UpperChar(c: char): (u: char)
    ensures IsSpace(u) <==> IsSpace(c)
    ensures 'a' <= c <= 'z' ==> u != c && 'A' <= u <= 'Z'
    ensures !('a' <= c <= 'z') ==> u == c
  {
    if 'a' <= c <= 'z' then (c as int - 32) as char else c
  }

  function Upper(s: string): (r: string)
    ensures |r| == |s|
    ensures forall i :: 0 <= i < |s| ==> r[i] == UpperChar(s[i])
  {
    if |s| == 0 then "" else [UpperChar(s[0])] + Upper(s[1..])
  }

  /** An upper-cased trimmed string is still trimmed, so trimming it again
      changes nothing. */
  lemma TrimUpperTrim(s: string)
    ensures Trim(Upper(Trim(s))) == Upper(Trim(s))
  {
    var u := Upper(Trim(s));
    TrimStartOfTrimmed(u);
    TrimEndOfTrimmed(u);
  }

  /** JavaScript `a < b` on strings: the first differing character decides,
      and a proper prefix is smaller. */
  predicate LexLess(a: string, b: string)
    decreases |a|
  {
    if |a| == 0 then |b| > 0
    else if |b| == 0 then false
    else if a[0] != b[0] then a[0] < b[0]
    else LexLess(a[1..], b[1..])
  }

  lemma {:induction false} LexLessIrreflexive(a: string)
    ensures !LexLess(a, a)
    decreases |a|
  {
    if |a| > 0 { LexLessIrreflexive(a[1..]); }
  }

  lemma {:induction false} LexLessAsymmetric(a: string, b: string)
    ensures LexLess(a, b) ==> !LexLess(b, a)
    decreases |a|
  {
    if |a| > 0 && |b| > 0 && a[0] == b[0] { LexLessAsymmetric(a[1..], b[1..]); }
  }

  lemma {:induction false} LexLessTransitive(a: string, b: string, c: string)
    requires LexLess(a, b) && LexLess(b, c)
    ensures LexLess(a, c)
    decreases |a|
  {
    if |a| > 0 && a[0] == b[0] && b[0] == c[0] {
      LexLessTransitive(a[1..], b[1..], c[1..]);
    }
  }

  /** Any two different strings are ordered one way or the other. */
  lemma {:induction false} LexLessConnected(a: string, b: string)
    ensures a == b || LexLess(a, b) || LexLess(b, a)
    decreases |a|
  {
    if |a| > 0 && |b| > 0 && a[0] == b[0] {
      LexLessConnected(a[1..], b[1..]);
      if a[1..] == b[1..] {
        assert a == [a[0]] + a[1..] && b == [b[0]] + b[1..];
      }
    }
  }
}

=== FILE: trip_form.dfy ===
/** The pilot chips of the trip form: clicking a pilot's name adds it to
    the draft's pilots or takes it off. The list goes through a JavaScript
    `Set`, which keeps the first occurrence of each name in insertion order
    and appends new names at the end. */
module TripForm {

  /** No name appears twice. */
  predicate Distinct(s: seq<string>) {
    forall i, j :: 0 <= i < j < |s| ==> s[i] != s[j]
  }

  /** `Array.from(new Set(s))`: the first occurrence of every name, in
      order. */
  function Dedup(s: seq<string>): (r: seq<string>)
    ensures Distinct(r)
    ensures forall x :: x in r <==> x in s
  {
    if |s| == 0 then []
    else
      var n := |s| - 1;
      var front := Dedup(s[..n]);
      assert forall x :: x in s <==> x in s[..n] || x == s[n] by {
        assert s == s[..n] + [s[n]];
      }
      if s[n] in front then front else front + [s[n]]
  }

  /** A list without repeats goes through the set unchanged. */
  lemma {:induction false} DedupDistinct(s: seq<string>)
    requires Distinct(s)
    ensures Dedup(s) == s
    decreases |s|
  {
    if |s| > 0 {
      var n := |s| - 1;
      DedupDistinct(s[..n]);
      assert s[n] !in s[..n];
      assert s == s[..n] + [s[n]];
    }
  }

  /** `set.delete(name)`: the list without `name`, order kept. */
  function Without(s: seq<string>, name: string): (r: seq<string>)
    ensures forall x :: x in r <==> x in s && x != name
    ensures Distinct(s) ==> Distinct(r)
  {
    if |s| == 0 then []
    else
      var rest := Without(s[1..], name);
      assert Distinct(s) ==> Distinct(s[1..]) && s[0] !in s[1..];
      (if s[0] == name then [] else [s[0]]) + rest
  }

  /** `togglePilot`: a name on the list comes off, any other name is added
      at the end; either way the result has no repeats. */
  function TogglePilot(pilots: seq<string>, name: string): (r: seq<string>)
    ensures Distinct(r)
    ensures name in r <==> name !in pilots
    ensures forall x :: x != name ==> (x in r <==> x in pilots)
  {
    var names := Dedup(pilots);
    if name in names then Without(names, name)
    else
      assert forall i :: 0 <= i < |names| ==> names[i] != name;
      names + [name]
  }

  /** Toggling the same name twice restores which pilots are on the list. */
  lemma ToggleTwiceMembers(pilots: seq<string>, name: string)
    ensures forall x :: x in TogglePilot(TogglePilot(pilots, name), name) <==> x in pilots
  {
  }

  /** For a list without repeats that lacks the name, toggling twice gives
      the list back exactly. */
  lemma ToggleTwiceAbsent(pilots: seq<string>, name: string)
    requires Distinct(pilots) && name !in pilots
    ensures TogglePilot(TogglePilot(pilots, name), name) == pilots
  {
    DedupDistinct(pilots);
    var once := pilots + [name];
    assert TogglePilot(pilots, name) == once;
    DedupDistinct(once);
    WithoutLast(pilots, name);
  }

  /** For a list without repeats that holds the name, toggling twice moves
      the name to the end. */
  lemma ToggleTwiceMoves(pilots: seq<string>, name: string)
    requires Distinct(pilots) && name in pilots
    ensures TogglePilot(TogglePilot(pilots, name), name) == Without(pilots, name) + [name]
  {
    DedupDistinct(pilots);
    var once := Without(pilots, name);
    assert TogglePilot(pilots, name) == once;
    DedupDistinct(once);
  }

  /** Dropping a name that only the appended last element carries gives
      back the list in front of it. */
  lemma {:induction false} WithoutLast(s: seq<string>, name: string)
    requires name !in s
    ensures Without(s + [name], name) == s
    decreases |s|
  {
    if |s| == 0 {
      assert [name][1..] == [];
    } else {
      assert (s + [name])[1..] == s[1..] + [name];
      WithoutLast(s[1..], name);
      assert s == [s[0]] + s[1..];
    }
  }
}

=== FILE: trip_groups.dfy ===
/** The trips page's three sections: trips dated today, upcoming trips
    soonest first, and past trips most recent first. `today` is a
    parameter; the page reads it from the wall clock. Sorting is
    `Array.prototype.sort`, which is stable, modelled as insertion sort. */
module TripGroups {
  import opened Seqs
  import opened Text
  import opened Trips

  datatype When = Today | Upcoming | Past

  /** The section a trip belongs to, by comparing its date with today's. */
  function WhenOf(t: Trip, today: string): When {
    var c := CompareYmd(t.date, today);
    if c == 0 then Today else if c > 0 then Upcoming else Past
  }

  /** Today's trips are dated today, upcoming ones after today and past
      ones before, in the order strings compare. */
  lemma WhenOfSpec(t: Trip, today: string)
    ensures WhenOf(t, today) == Today <==> t.date == today
    ensures WhenOf(t, today) == Upcoming <==> LexLess(today, t.date)
    ensures WhenOf(t, today) == Past <==> LexLess(t.date, today)
  {
  }

  /** The trips of one section, in list order. */
  function Bucket(trips: seq<Trip>, today: string, w: When): (r: seq<Trip>)
    ensures forall i :: 0 <= i < |r| ==> WhenOf(r[i], today) == w
  {
    if |trips| == 0 then []
    else (if WhenOf(trips[0], today) == w then [trips[0]] else []) + Bucket(trips[1..], today, w)
  }

  /** The section of two lists joined is their sections joined, so a
      section keeps list order, repeats included. */
  lemma {:induction false} BucketConcat(a: seq<Trip>, b: seq<Trip>, today: string, w: When)
    ensures Bucket(a + b, today, w) == Bucket(a, today, w) + Bucket(b, today, w)
    decreases |a|
  {
    if |a| == 0 {
      assert a + b == b;
    } else {
      assert (a + b)[0] == a[0];
      assert (a + b)[1..] == a[1..] + b;
      BucketCons(a + b, today, w);
      BucketCons(a, today, w);
      BucketConcat(a[1..], b, today, w);
      ConcatAssoc(Bucket([a[0]], today, w), Bucket(a[1..], today, w), Bucket(b, today, w));
    }
  }

  /** The first trip is sorted into its section ahead of the rest. */
  lemma BucketCons(a: seq<Trip>, today: string, w: When)
    requires |a| > 0
    ensures Bucket(a, today, w) == Bucket([a[0]], today, w) + Bucket(a[1..], today, w)
  {
    var h := if WhenOf(a[0], today) == w then [a[0]] else [];
    BucketOne(a[0], today, w);
    assert Bucket(a, today, w) == h + Bucket(a[1..], today, w);
  }

  /** One trip is in a section exactly when its date puts it there. */
  lemma BucketOne(t: Trip, today: string, w: When)
    ensures Bucket([t], today, w) == if WhenOf(t, today) == w then [t] else []
  {
    assert [t][1..] == [];
  }

  lemma BucketStep(trips: seq<Trip>, today: string, w: When)
    requires |trips| > 0
    ensures multiset(Bucket(trips, today, w))
            == (if WhenOf(trips[0], today) == w then multiset{trips[0]} else multiset{})
               + multiset(Bucket(trips[1..], today, w))
  {
  }

  /** Every trip lands in exactly one section: the three sections together
      hold the list's trips, each as often as the list does. */
  lemma {:induction false} BucketsPartition(trips: seq<Trip>, today: string)
    ensures Partitioned(trips, today)
    decreases |trips|
  {
    if |trips| > 0 {
      BucketsPartition(trips[1..], today);
      PartitionedCons(trips, today);
    }
  }

  /** The three sections together hold the list's trips. */
  predicate Partitioned(trips: seq<Trip>, today: string) {
    multiset(Bucket(trips, today, Today)) + multiset(Bucket(trips, today, Upcoming))
      + multiset(Bucket(trips, today, Past)) == multiset(trips)
  }

  lemma PartitionedCons(trips: seq<Trip>, today: string)
    requires |trips| > 0 && Partitioned(trips[1..], today)
    ensures Partitioned(trips, today)
  {
    var rest := trips[1..];
    BucketStep(trips, today, Today);
    BucketStep(trips, today, Upcoming);
    BucketStep(trips, today, Past);
    MultisetHead(trips);
    PartitionStep(WhenOf(trips[0], today), multiset{trips[0]},
      multiset(Bucket(rest, today, Today)), multiset(Bucket(rest, today, Upcoming)), multiset(Bucket(rest, today, Past)),
      multiset(Bucket(trips, today, Today)), multiset(Bucket(trips, today, Upcoming)), multiset(Bucket(trips, today, Past)));
  }

  lemma MultisetHead(s: seq<Trip>)
    requires |s| > 0
    ensures multiset(s) == multiset{s[0]} + multiset(s[1..])
  {
    assert s == [s[0]] + s[1..];
  }

  /** Adding one trip to the section `w` of a partition of the rest gives
      a partition of the whole. */
  lemma PartitionStep(w: When, h: multiset<Trip>, t: multiset<Trip>, u: multiset<Trip>, p: multiset<Trip>,
                      t': multiset<Trip>, u': multiset<Trip>, p': multiset<Trip>)
    requires t' == (if w == Today then h else multiset{}) + t
    requires u' == (if w == Upcoming then h else multiset{}) + u
    requires p' == (if w == Past then h else multiset{}) + p
    ensures t' + u' + p' == h + (t + u + p)
  {
  }

  /** So the three section sizes add up to the list's length. */
  lemma BucketsCount(trips: seq<Trip>, today: string)
    ensures |Bucket(trips, today, Today)| + |Bucket(trips, today, Upcoming)| + |Bucket(trips, today, Past)| == |trips|
  {
    BucketsPartition(trips, today);
    assert |multiset(trips)| == |trips|;
  }

  /** The comparator: `compareYmd(a.date, b.date)` for an ascending
      section, with the arguments swapped for a descending one. */
  function Cmp(a: Trip, b: Trip, desc: bool): int {
    if desc then CompareYmd(b.date, a.date) else CompareYmd(a.date, b.date)
  }

  /** The comparator says "not after" for every pair in list order. */
  predicate Sorted(s: seq<Trip>, desc: bool) {
    forall i, j :: 0 <= i < j < |s| ==> Cmp(s[i], s[j], desc) <= 0
  }

  /** Put `x` in front of the first trip it does not sort after. */
  function Insert(x: Trip, s: seq<Trip>, desc: bool): (r: seq<Trip>)
    ensures multiset(r) == multiset(s) + multiset{x}
    ensures |r| == |s| + 1
  {
    if |s| == 0 || Cmp(x, s[0], desc) <= 0 then [x] + s
    else
      assert s == [s[0]] + s[1..];
      [s[0]] + Insert(x, s[1..], desc)
  }

  /** Stable sort: each trip is inserted in front of the already sorted
      trips that follow it in the list and do not sort before it. */
  function Sort(s: seq<Trip>, desc: bool): (r: seq<Trip>)
    ensures multiset(r) == multiset(s)
    ensures |r| == |s|
  {
    if |s| == 0 then []
    else
      assert s == [s[0]] + s[1..];
      Insert(s[0], Sort(s[1..], desc), desc)
  }

  lemma CmpTransitive(a: Trip, b: Trip, c: Trip, desc: bool)
    requires Cmp(a, b, desc) <= 0 && Cmp(b, c, desc) <= 0
    ensures Cmp(a, c, desc) <= 0
  {
    if desc {
      CompareYmdTransitive(c.date, b.date, a.date);
    } else {
      CompareYmdTransitive(a.date, b.date, c.date);
    }
  }

  lemma CmpFlip(a: Trip, b: Trip, desc: bool)
    ensures Cmp(a, b, desc) == -Cmp(b, a, desc)
  {
    CompareYmdAntisymmetric(a.date, b.date);
  }

  /** Inserting into a sorted list keeps it sorted. */
  lemma {:induction false} InsertSorted(x: Trip, s: seq<Trip>, desc: bool)
    requires Sorted(s, desc)
    ensures Sorted(Insert(x, s, desc), desc)
    decreases |s|
  {
    if |s| == 0 {
    } else if Cmp(x, s[0], desc) <= 0 {
      InsertSortedFront(x, s, desc);
    } else {
      InsertSorted(x, s[1..], desc);
      InsertSortedBehind(x, s, desc);
    }
  }

  /** A trip that does not sort after the head of a sorted list can go in
      front of it. */
  lemma InsertSortedFront(x: Trip, s: seq<Trip>, desc: bool)
    requires Sorted(s, desc) && |s| > 0 && Cmp(x, s[0], desc) <= 0
    ensures Sorted([x] + s, desc)
  {
    var r := [x] + s;
    forall i, j | 0 <= i < j < |r| ensures Cmp(r[i], r[j], desc) <= 0 {
      if i == 0 && j > 1 {
        CmpTransitive(x, s[0], s[j - 1], desc);
      }
    }
  }

  /** A trip that sorts after the head of a sorted list goes behind it:
      the head does not sort after anything in the rest with the trip
      inserted. */
  lemma InsertSortedBehind(x: Trip, s: seq<Trip>, desc: bool)
    requires Sorted(s, desc) && |s| > 0 && Cmp(x, s[0], desc) > 0
    requires Sorted(Insert(x, s[1..], desc), desc)
    ensures Sorted([s[0]] + Insert(x, s[1..], desc), desc)
  {
    var rest := Insert(x, s[1..], desc);
    CmpFlip(x, s[0], desc);
    forall j | 0 <= j < |rest| ensures Cmp(s[0], rest[j], desc) <= 0 {
      assert rest[j] in multiset(rest);
      if rest[j] != x {
        assert rest[j] in multiset(s[1..]);
        var k :| 0 <= k < |s[1..]| && s[1..][k] == rest[j];
        assert s[k + 1] == rest[j];
      }
    }
    SortedCons(s[0], rest, desc);
  }

  /** A trip that sorts after nothing in a sorted list can head it. */
  lemma SortedCons(a: Trip, s: seq<Trip>, desc: bool)
    requires Sorted(s, desc)
    requires forall j :: 0 <= j < |s| ==> Cmp(a, s[j], desc) <= 0
    ensures Sorted([a] + s, desc)
  {
    var r := [a] + s;
    forall i, j | 0 <= i < j < |r| ensures Cmp(r[i], r[j], desc) <= 0 {
      if i > 0 {
        assert r[i] == s[i - 1] && r[j] == s[j - 1];
      } else {
        assert r[j] == s[j - 1];
      }
    }
  }

  /** The sort puts the trips in comparator order. */
  lemma {:induction false} SortSorted(s: seq<Trip>, desc: bool)
    ensures Sorted(Sort(s, desc), desc)
    decreases |s|
  {
    if |s| > 0 {
      SortSorted(s[1..], desc);
      InsertSorted(s[0], Sort(s[1..], desc), desc);
    }
  }

  /** The trips dated `date`, in list order. */
  function OnDate(s: seq<Trip>, date: string): seq<Trip> {
    if |s| == 0 then [] else (if s[0].date == date then [s[0]] else []) + OnDate(s[1..], date)
  }

  lemma OnDateCons(a: Trip, s: seq<Trip>, date: string)
    ensures OnDate([a] + s, date) == (if a.date == date then [a] else []) + OnDate(s, date)
  {
    assert ([a] + s)[1..] == s;
  }

  /** Inserting a trip puts it in front of every trip of its own date and
      leaves the other dates' order alone. */
  lemma {:induction false} InsertOnDate(x: Trip, s: seq<Trip>, desc: bool, date: string)
    ensures OnDate(Insert(x, s, desc), date) == (if x.date == date then [x] else []) + OnDate(s, date)
    decreases |s|
  {
    if |s| == 0 || Cmp(x, s[0], desc) <= 0 {
      OnDateCons(x, s, date);
    } else {
      var rest := Insert(x, s[1..], desc);
      InsertOnDate(x, s[1..], desc, date);
      OnDateCons(s[0], rest, date);
      OnDateCons(s[0], s[1..], date);
      assert s == [s[0]] + s[1..];
      if x.date == date {
        assert s[0].date != date;
      }
    }
  }

  /** Stability: trips with equal dates keep their list order. */
  lemma {:induction false} SortStable(s: seq<Trip>, desc: bool, date: string)
    ensures OnDate(Sort(s, desc), date) == OnDate(s, date)
    decreases |s|
  {
    if |s| > 0 {
      SortStable(s[1..], desc, date);
      InsertOnDate(s[0], Sort(s[1..], desc), desc, date);
    }
  }

  /** A list whose trips all share one date is already in order and the
      stable sort leaves it alone. */
  lemma {:induction false} SortOneDate(s: seq<Trip>, desc: bool, date: string)
    requires forall i :: 0 <= i < |s| ==> s[i].date == date
    ensures Sort(s, desc) == s
    decreases |s|
  {
    if |s| > 0 {
      SortOneDate(s[1..], desc, date);
      assert s == [s[0]] + s[1..];
    }
  }

  datatype Groups = Groups(todays: seq<Trip>, upcoming: seq<Trip>, past: seq<Trip>)

  /** `grouped`: the three sections, todays and upcoming ascending by date,
      past descending. */
  function Grouped(trips: seq<Trip>, today: string): (g: Groups)
    ensures forall i :: 0 <= i < |g.todays| ==> g.todays[i].date == today
    ensures forall i :: 0 <= i < |g.upcoming| ==> LexLess(today, g.upcoming[i].date)
    ensures forall i :: 0 <= i < |g.past| ==> LexLess(g.past[i].date, today)
  {
    var t := Bucket(trips, today, Today);
    var u := Bucket(trips, today, Upcoming);
    var p := Bucket(trips, today, Past);
    SortKeepsSection(t, false, today, Today);
    SortKeepsSection(u, false, today, Upcoming);
    SortKeepsSection(p, true, today, Past);
    Groups(Sort(t, false), Sort(u, false), Sort(p, true))
  }

  /** Sorting one section's trips leaves them in that section. */
  lemma SortKeepsSection(s: seq<Trip>, desc: bool, today: string, w: When)
    requires forall i :: 0 <= i < |s| ==> WhenOf(s[i], today) == w
    ensures forall i :: 0 <= i < |Sort(s, desc)| ==> WhenOf(Sort(s, desc)[i], today) == w
  {
    var r := Sort(s, desc);
    forall i | 0 <= i < |r| ensures WhenOf(r[i], today) == w {
      assert r[i] in multiset(s);
      var j :| 0 <= j < |s| && s[j] == r[i];
    }
  }

  /** The sections partition the list, upcoming is sorted soonest first and
      past most recent first, each section is a reordering of its bucket
      in which trips of equal date keep their list order, and today's
      section is its bucket unchanged. */
  lemma GroupedSpec(trips: seq<Trip>, today: string, date: string)
    ensures multiset(Grouped(trips, today).todays) + multiset(Grouped(trips, today).upcoming)
            + multiset(Grouped(trips, today).past) == multiset(trips)
    ensures Grouped(trips, today).todays == Bucket(trips, today, Today)
    ensures Sorted(Grouped(trips, today).upcoming, false)
    ensures Sorted(Grouped(trips, today).past, true)
    ensures OnDate(Grouped(trips, today).upcoming, date) == OnDate(Bucket(trips, today, Upcoming), date)
    ensures OnDate(Grouped(trips, today).past, date) == OnDate(Bucket(trips, today, Past), date)
  {
    BucketsPartition(trips, today);
    BucketsCount(trips, today);
    SortOneDate(Bucket(trips, today, Today), false, today);
    SortSorted(Bucket(trips, today, Upcoming), false);
    SortSorted(Bucket(trips, today, Past), true);
    SortStable(Bucket(trips, today, Upcoming), false, date);
    SortStable(Bucket(trips, today, Past), true, date);
  }
}

=== FILE: trips.dfy ===
/** The trip list: the draft form's validation, creating a trip from a
    draft, and patching or deleting the trip that is selected by id. Dates
    are `YYYY-MM-DD` strings compared as JavaScript compares strings. */
module Trips {
  import opened Wrappers
  import opened Text

  datatype Trip = Trip(
    id: string,
    clientName: string,
    departure: string,
    destination: string,
    date: string,
    passengers: int,
    legs: string,
    planeType: string,
    catering: string,
    pilots: seq<string>)

  /** The form state: every field of a trip except its id. */
  datatype Draft = Draft(
    clientName: string,
    departure: string,
    destination: string,
    date: string,
    passengers: int,
    legs: string,
    planeType: string,
    catering: string,
    pilots: seq<string>)

  /** `compareYmd`: -1, 0 or 1 as `a` sorts before, equal to or after `b`. */
  function CompareYmd(a: string, b: string): (c: int)
    ensures c == -1 || c == 0 || c == 1
    ensures c == 0 <==> a == b
    ensures c < 0 <==> LexLess(a, b)
    ensures c > 0 <==> LexLess(b, a)
  {
    LexLessConnected(a, b);
    LexLessIrreflexive(a);
    LexLessAsymmetric(a, b);
    if LexLess(a, b) then -1 else if LexLess(b, a) then 1 else 0
  }

  /** Swapping the arguments negates the comparison. */
  lemma CompareYmdAntisymmetric(a: string, b: string)
    ensures CompareYmd(a, b) == -CompareYmd(b, a)
  {
    LexLessAsymmetric(a, b);
  }

  /** "Not after" is transitive, so sorting by `compareYmd` is meaningful. */
  lemma CompareYmdTransitive(a: string, b: string, c: string)
    requires CompareYmd(a, b) <= 0 && CompareYmd(b, c) <= 0
    ensures CompareYmd(a, c) <= 0
  {
    if a != b && b != c {
      LexLessTransitive(a, b, c);
    }
  }

  const ClientRequired := "Client name is required"
  const DepartureRequired := "Departure airport is required"
  const DestinationRequired := "Destination airport is required"
  const DateRequired := "Date is required"
  const PassengersRequired := "Passengers must be 1+"

  /** A draft the form accepts: the three names are not blank, a date is
      set and at least one passenger flies. */
  predicate DraftOk(d: Draft) {
    && !Blank(d.clientName)
    && !Blank(d.departure)
    && !Blank(d.destination)
    && d.date != ""
    && d.passengers >= 1
  }

  /** `validateDraft`: the first failing check's message, in form order,
      or nothing when the draft is acceptable. */
  function ValidateDraft(d: Draft): (r: Option<string>)
    ensures r.None? <==> DraftOk(d)
    ensures Blank(d.clientName) ==> r == Some(ClientRequired)
    ensures !Blank(d.clientName) && Blank(d.departure) ==> r == Some(DepartureRequired)
    ensures !Blank(d.clientName) && !Blank(d.departure) && Blank(d.destination)
            ==> r == Some(DestinationRequired)
    ensures !Blank(d.clientName) && !Blank(d.departure) && !Blank(d.destination) && d.date == ""
            ==> r == Some(DateRequired)
    ensures (!Blank(d.clientName) && !Blank(d.departure) && !Blank(d.destination) && d.date != ""
             && d.passengers < 1) ==> r == Some(PassengersRequired)
  {
    if Blank(d.clientName) then Some(ClientRequired)
    else if Blank(d.departure) then Some(DepartureRequired)
    else if Blank(d.destination) then Some(DestinationRequired)
    else if d.date == "" then Some(DateRequired)
    else if d.passengers == 0 || d.passengers < 1 then Some(PassengersRequired)
    else None
  }

  /** The new trip `createTrip` builds: names trimmed, airport codes
      trimmed and upper-cased, a missing passenger count read as one. */
  function NewTrip(d: Draft, id: string): Trip {
    Trip(id, Trim(d.clientName), Upper(Trim(d.departure)), Upper(Trim(d.destination)), d.date,
         if d.passengers == 0 then 1 else Max(1, d.passengers),
         d.legs, d.planeType, d.catering, d.pilots)
  }

  function Max(a: int, b: int): int {
    if a < b then b else a
  }

  /** `createTrip`: an invalid draft is refused with its message and the
      list is kept; a valid one puts the new trip, under the id the caller
      supplies, in front of the existing trips. */
  function CreateTrip(trips: seq<Trip>, d: Draft, id: string): (r: Result<seq<Trip>, string>)
    ensures r.Failure? <==> !DraftOk(d)
    ensures r.Failure? ==> Some(r.error) == ValidateDraft(d)
    ensures r.Success? ==> |r.value| == |trips| + 1 && r.value[1..] == trips
    ensures r.Success? ==> && r.value[0].id == id
                           && r.value[0].clientName == Trim(d.clientName)
                           && r.value[0].departure == Upper(Trim(d.departure))
                           && r.value[0].destination == Upper(Trim(d.destination))
                           && r.value[0].date == d.date
                           && r.value[0].passengers == d.passengers
                           && r.value[0].passengers >= 1
                           && r.value[0].legs == d.legs
                           && r.value[0].planeType == d.planeType
                           && r.value[0].catering == d.catering
                           && r.value[0].pilots == d.pilots
  {
    match ValidateDraft(d)
    case Some(err) => Failure(err)
    case None => Success([NewTrip(d, id)] + trips)
  }

  /** The trip's fields as a draft. */
  function AsDraft(t: Trip): Draft {
    Draft(t.clientName, t.departure, t.destination, t.date, t.passengers, t.legs, t.planeType, t.catering, t.pilots)
  }

  lemma UpperUpper(s: string)
    ensures Upper(Upper(s)) == Upper(s)
  {
  }

  /** A created trip passes validation again, and creating it afresh from
      its own fields gives the same trip: normalisation is idempotent. */
  lemma NewTripStable(d: Draft, id: string)
    requires DraftOk(d)
    ensures DraftOk(AsDraft(NewTrip(d, id)))
    ensures NewTrip(AsDraft(NewTrip(d, id)), id) == NewTrip(d, id)
  {
    var t := NewTrip(d, id);
    var e := AsDraft(t);
    TrimIdempotent(d.clientName);
    AirportStable(d.departure);
    AirportStable(d.destination);
    assert t.passengers == d.passengers;
    assert DraftOk(e);
    var u := NewTrip(e, id);
    assert u.clientName == t.clientName;
    assert u.departure == t.departure;
    assert u.destination == t.destination;
    assert u.passengers == t.passengers;
  }

  /** An airport code typed non-blank stays non-blank once normalised, and
      normalising it again changes nothing. */
  lemma AirportStable(s: string)
    requires !Blank(s)
    ensures !Blank(Upper(Trim(s)))
    ensures Upper(Trim(Upper(Trim(s)))) == Upper(Trim(s))
  {
    TrimUpperTrim(s);
    UpperUpper(Trim(s));
  }

  /** The index of the first trip with id `id`, if any. */
  function Find(trips: seq<Trip>, id: string): (r: Option<nat>)
    ensures r.Some? ==> r.value < |trips| && trips[r.value].id == id
    ensures r.Some? ==> forall j :: 0 <= j < r.value ==> trips[j].id != id
    ensures r.None? <==> forall j :: 0 <= j < |trips| ==> trips[j].id != id
  {
    if |trips| == 0 then None
    else if trips[0].id == id then Some(0)
    else match Find(trips[1..], id)
      case None => None
      case Some(k) => Some(k + 1)
  }

  /** `selectedTrip`: nothing when no id is selected (null or empty), else
      the first trip carrying the selected id. */
  function SelectedTrip(trips: seq<Trip>, sel: Option<string>): (r: Option<Trip>)
    ensures sel.None? || sel.value == "" ==> r.None?
    ensures r.Some? ==> sel.Some? && r.value.id == sel.value && r.value in trips
    ensures sel.Some? && sel.value != "" ==> (r.Some? <==> exists j :: 0 <= j < |trips| && trips[j].id == sel.value)
  {
    if sel.None? || sel.value == "" then None
    else match Find(trips, sel.value)
      case None => None
      case Some(k) => Some(trips[k])
  }

  /** What a save or a delete does to the list: nothing (no selection, or
      the user declined), a refusal with a message, or a new list. */
  datatype Outcome = Ignored | Rejected(error: string) | Applied(trips: seq<Trip>)

  /** `{ ...t, ...draft }`: every draft field overwrites the trip's; the id
      is not a draft field and stays. */
  function Overlay(t: Trip, d: Draft): (r: Trip)
    ensures r.id == t.id && AsDraft(r) == d
  {
    Trip(t.id, d.clientName, d.departure, d.destination, d.date, d.passengers, d.legs, d.planeType, d.catering, d.pilots)
  }

  /** Every trip with id `id` overlaid with the draft, the rest as they are. */
  function Patch(trips: seq<Trip>, id: string, d: Draft): (r: seq<Trip>)
    ensures |r| == |trips|
    ensures forall i :: 0 <= i < |trips| ==> r[i] == if trips[i].id == id then Overlay(trips[i], d) else trips[i]
  {
    if |trips| == 0 then []
    else [if trips[0].id == id then Overlay(trips[0], d) else trips[0]] + Patch(trips[1..], id, d)
  }

  /** `updateTrip`: without a selected trip nothing happens; an invalid
      draft is refused; otherwise every trip with the selected id takes the
      draft's fields, as typed. */
  function UpdateTrip(trips: seq<Trip>, sel: Option<string>, d: Draft): (r: Outcome)
    ensures SelectedTrip(trips, sel).None? ==> r == Ignored
    ensures SelectedTrip(trips, sel).Some? && !DraftOk(d) ==> r.Rejected? && Some(r.error) == ValidateDraft(d)
    ensures SelectedTrip(trips, sel).Some? && DraftOk(d) ==> r.Applied? && |r.trips| == |trips|
    ensures r.Applied? ==> forall i :: 0 <= i < |trips| ==>
              && r.trips[i].id == trips[i].id
              && (trips[i].id == sel.value ==> AsDraft(r.trips[i]) == d)
              && (trips[i].id != sel.value ==> r.trips[i] == trips[i])
  {
    match SelectedTrip(trips, sel)
    case None => Ignored
    case Some(t) =>
      match ValidateDraft(d)
      case Some(err) => Rejected(err)
      case None => Applied(Patch(trips, t.id, d))
  }

  /** After a save the same id selects the saved trip, now showing the
      draft, and saving the same draft again changes nothing more. */
  lemma UpdateThenSelect(trips: seq<Trip>, sel: Option<string>, d: Draft)
    requires UpdateTrip(trips, sel, d).Applied?
    ensures SelectedTrip(UpdateTrip(trips, sel, d).trips, sel) == Some(Overlay(SelectedTrip(trips, sel).value, d))
    ensures UpdateTrip(UpdateTrip(trips, sel, d).trips, sel, d) == UpdateTrip(trips, sel, d)
  {
    var id := sel.value;
    var t := SelectedTrip(trips, sel).value;
    assert t.id == id;
    assert UpdateTrip(trips, sel, d) == Applied(Patch(trips, id, d));
    var p := Patch(trips, id, d);
    PatchFind(trips, id, d);
    PatchTwice(trips, id, d);
    assert SelectedTrip(p, sel) == Some(p[Find(trips, id).value]);
  }

  /** Patching keeps every id in place, so the same id finds the same
      index. */
  lemma PatchFind(trips: seq<Trip>, id: string, d: Draft)
    ensures Find(Patch(trips, id, d), id) == Find(trips, id)
  {
    FindSame(trips, Patch(trips, id, d), id);
  }

  /** Patching twice with the same draft is patching once. */
  lemma PatchTwice(trips: seq<Trip>, id: string, d: Draft)
    ensures Patch(Patch(trips, id, d), id, d) == Patch(trips, id, d)
  {
    var p := Patch(trips, id, d);
    assert forall i :: 0 <= i < |p| ==> Patch(p, id, d)[i] == p[i];
  }

  /** Two lists with the same ids at the same places find the same index. */
  lemma {:induction false} FindSame(a: seq<Trip>, b: seq<Trip>, id: string)
    requires |a| == |b|
    requires forall i :: 0 <= i < |a| ==> a[i].id == b[i].id
    ensures Find(a, id) == Find(b, id)
    decreases |a|
  {
    if |a| > 0 {
      FindSame(a[1..], b[1..], id);
    }
  }

  /** Every trip without id `id`, in list order. */
  function Remove(trips: seq<Trip>, id: string): (r: seq<Trip>)
    ensures |r| <= |trips|
    ensures forall t :: t in r <==> t in trips && t.id != id
  {
    if |trips| == 0 then []
    else (if trips[0].id == id then [] else [trips[0]]) + Remove(trips[1..], id)
  }

  /** Removing from a concatenation removes from each part, so the kept
      trips stay in their relative order. */
  lemma {:induction false} RemoveConcat(a: seq<Trip>, b: seq<Trip>, id: string)
    ensures Remove(a + b, id) == Remove(a, id) + Remove(b, id)
    decreases |a|
  {
    if |a| == 0 {
      assert a + b == b;
    } else {
      assert (a + b)[1..] == a[1..] + b;
      RemoveConcat(a[1..], b, id);
    }
  }

  /** A list with no trip of that id is left exactly as it is. */
  lemma {:induction false} RemoveAbsent(trips: seq<Trip>, id: string)
    requires forall i :: 0 <= i < |trips| ==> trips[i].id != id
    ensures Remove(trips, id) == trips
    decreases |trips|
  {
    if |trips| > 0 {
      RemoveAbsent(trips[1..], id);
      assert trips == [trips[0]] + trips[1..];
    }
  }

  /** The number of trips with id `id`. */
  function CountId(trips: seq<Trip>, id: string): nat {
    if |trips| == 0 then 0 else (if trips[0].id == id then 1 else 0) + CountId(trips[1..], id)
  }

  /** Removing drops exactly the trips with that id. */
  lemma {:induction false} RemoveCount(trips: seq<Trip>, id: string)
    ensures |Remove(trips, id)| + CountId(trips, id) == |trips|
    decreases |trips|
  {
    if |trips| > 0 {
      RemoveCount(trips[1..], id);
    }
  }

  /** `deleteTrip`: without a selected trip, or when the user does not
      confirm, nothing happens; otherwise every trip with the selected id
      goes and the others stay, in order (`RemoveConcat`, `RemoveCount`). */
  function DeleteTrip(trips: seq<Trip>, sel: Option<string>, confirmed: bool): (r: Outcome)
    ensures SelectedTrip(trips, sel).None? || !confirmed ==> r == Ignored
    ensures SelectedTrip(trips, sel).Some? && confirmed ==> r.Applied?
    ensures r.Applied? ==> |r.trips| < |trips|
    ensures r.Applied? ==> forall t :: t in r.trips <==> t in trips && t.id != sel.value
    ensures r.Applied? ==> r.trips == Remove(trips, sel.value)
  {
    match SelectedTrip(trips, sel)
    case None => Ignored
    case Some(t) =>
      if !confirmed then Ignored
      else
        var k := Find(trips, t.id).value;
        RemoveCount(trips, t.id);
        CountIdPositive(trips, t.id, k);
        Applied(Remove(trips, t.id))
  }

  lemma {:induction false} CountIdPositive(trips: seq<Trip>, id: string, k: nat)
    requires k < |trips| && trips[k].id == id
    ensures CountId(trips, id) > 0
    decreases |trips|
  {
    if k > 0 {
      CountIdPositive(trips[1..], id, k - 1);
    }
  }

  /** After a delete nothing is selected any more, and the surviving trips
      are the old list with that id filtered out, in the old order: a
      second delete finds nothing to act on. */
  lemma DeleteThenSelect(trips: seq<Trip>, sel: Option<string>)
    requires DeleteTrip(trips, sel, true).Applied?
    ensures SelectedTrip(DeleteTrip(trips, sel, true).trips, sel).None?
    ensures DeleteTrip(DeleteTrip(trips, sel, true).trips, sel, true) == Ignored
    ensures Remove(DeleteTrip(trips, sel, true).trips, sel.value) == DeleteTrip(trips, sel, true).trips
  {
    var r := DeleteTrip(trips, sel, true).trips;
    forall i | 0 <= i < |r| ensures r[i].id != sel.value {
      assert r[i] in r;
    }
    RemoveAbsent(r, sel.value);
  }
}

=== FILE: wrappers.dfy ===
/** Optional values and outcomes that either succeed or carry an error,
    for the places where the pages use `null`, `?? fallback` or an early
    `return alert(message)`. */
module Wrappers {

  datatype Option<+T> = None | Some(value: T)

  datatype Result<+R, +E> = Success(value: R) | Failure(error: E)
}
